=== FILE: README.md ===
# treeherder-push-counts: the per-day counting core

This project models `Treeherder.output_counts` and `Treeherder.output_headers`
of `pushes.py`. The program prints one CSV-like report about a Treeherder
instance: for each requested repository and each day of a date range, either

- the number of pushes of that day, taken as the span from the first to the
  last push id of the day's push listing; or,
- when test-label patterns are given, one row per label key with the number
  of (job, pattern) matches counted under it. The key is the pattern when
  consolidating, otherwise the job's `job_type_name`.

Everything the program fetches is an input value. A `Dashboard` holds three
functions that answer the push listing of a day, the resultsets of a
changeset and the job listing of a resultset, with `None` where the fetch
produced nothing. Regular-expression search is the `matches(pattern, name)`
parameter of a `Query`. Days are integer day numbers, and printing a date is
a `dateText` parameter. The exceptions the model covers (a missing
resultset or job listing, a push without changesets, a missing or non-string
`job_type_name`, a push id that is not an integer) are `Fault` values:
the run stops and keeps the rows printed so far. Printing itself never
fails in the model.

Modules, one per concern:

- `Basics` (basics.dfy): `Option`, `Result` and the `Fault` kinds.
- `StringOrder` (string_order.dfy): Python 2 string comparison and `keys.sort()`.
- `Decimal` (decimal.dfy): `int()` on a push id and `str()` on a count.
- `Delimited` (delimited.dfy): `delimiter.join(...)` and splitting a line back.
- `Jobs` (jobs.dfy): `dict(zip(job_property_names, row))` and `job['job_type_name']`.
- `Tally` (tally.dfy): the `label_counts` dictionary and its sorted rows.
- `Pushes` (pushes.dfy): one day, the day loop, the header and the whole report.

Two points where the code behaves otherwise than one might expect; the
model follows the code:

- One might expect the push count to be the highest push id minus the
  lowest plus one. The code sorts the ids as strings before converting
  them, so the count is `int(last) - int(first) + 1` for the string-least
  and string-greatest ids. It is the numeric span whenever every id has the
  same number of digits (`Pushes.EqualWidthSpan`). With ids of different
  widths it can differ: ids "99" and "100" count as 0
  (`Pushes.LexicographicSpan`), while ids "100" and "1000" still count as
  901 because a prefix sorts first (`Pushes.PrefixSpan`).
- One might expect the rows ordered by day, then repository. `main` runs
  the whole day loop for one repository before the next, so the report is
  ordered by repository in the order given (`Pushes.RepoRunsOrder`), then
  by day (`Pushes.OutputCounts`, `Pushes.OutputCountsDay`).

## Model

| member | source | states |
|---|---|---|
| StringOrder.SortedKeys | pushes.py:187-188 | The sorted push ids list every id exactly once, in strictly ascending Python 2 string order |
| StringOrder.SortedKeysUnique | pushes.py:187-188 | Any strictly ascending listing of exactly a set of keys is the sorted one, so the sort result depends only on the key set |
| StringOrder.SortedKeysFirst | pushes.py:188-190 | `push_ids[0]` after sorting is the least id in string order |
| StringOrder.SortedKeysLast | pushes.py:188-190 | `push_ids[-1]` after sorting is the greatest id in string order |
| Decimal.IntToText | pushes.py:191 | `str(count)` is canonical decimal text: a minus sign exactly for negative counts, no leading zeros, and `int()` reads it back to the same count |
| Decimal.EqualWidthOrder | pushes.py:188-190 | Among digit strings of one width, sorting as strings is sorting by numeric value, in both directions |
| Pushes.PushCountSorted | pushes.py:187-190 | The count of a day without patterns converts exactly the first and the last of the string-sorted push ids |
| Pushes.PushCountSpan | pushes.py:187-190 | The count is `int(greatest) - int(least) + 1` for the string-least and string-greatest ids, raising on an id that is not an integer |
| Pushes.DigitSpan | pushes.py:190 | For two digit-string ids, the span is the value of the last minus the value of the first plus one, with no exception |
| Pushes.EqualWidthSpan | pushes.py:187-190 | When all ids are digit strings of one width, the count is the numerically largest id minus the numerically smallest plus one |
| Pushes.LexicographicSpan | pushes.py:187-190 | Pushes "99" and "100" count as 0, because "100" sorts before "99" |
| Pushes.PrefixSpan | pushes.py:187-190 | Ids of different widths can still give the numeric span: pushes "100" and "1000" count as 901, because a prefix sorts first |
| Pushes.SpanIgnoresGaps | pushes.py:187-190 | Pushes "100" and "103" count as 4: missing ids between the ends still count |
| Jobs.Zip | pushes.py:202-203 | `zip` pairs names with values by position and stops at the shorter list |
| Jobs.ToDict | pushes.py:202-203 | `dict(pairs)` has exactly the keys of the pairs, and each key holds the value of its last pair |
| Jobs.BuildJob | pushes.py:202-203 | A job has a field for each name that has a value in its position; names or values past the shorter list are dropped; a repeated name keeps its last value |
| Jobs.BuildJobExample | pushes.py:202-203 | A repeated `job_type_name` keeps the later value and an unpaired trailing value is dropped |
| Pushes.TypeNames | pushes.py:201-205 | The type names of a listing's jobs are read exactly when every job has a string `job_type_name`, one name per job in order |
| Pushes.ResultsetNamesOk | pushes.py:197-205 | The names of a changeset's resultsets are read exactly when every job listing can be fetched and names all its jobs |
| Pushes.PushNames | pushes.py:195-199 | A push with no changesets raises; otherwise its names are read exactly when its last changeset's resultset listing exists and all its job listings read; which names it reads is stated by `Pushes.PushNamesJobs` |
| Pushes.PushesNames | pushes.py:194-205 | The names of the listed pushes are read exactly when every push's names are read; which names is stated by `Pushes.PushesNamesJobs` |
| Pushes.DayNames | pushes.py:185-205 | A day without pushes has no job names; otherwise they are read exactly when every push of the day reads; which names is stated by `Pushes.DayNamesJobs` |
| Pushes.ListingNamesJobs | pushes.py:199-205 | A job listing that reads gives one name per job row, and its names are exactly the `job_type_name`s of the jobs rebuilt from its rows, each name as often as job rows carry it |
| Pushes.ResultsetNamesJobs | pushes.py:197-205 | The resultsets of a changeset give one name per job row of their listings, and exactly the names of the jobs listed under one of them, each as often as those job rows carry it |
| Pushes.PushNamesJobs | pushes.py:195-205 | A push gives one name per job row of its last changeset's resultsets, and exactly the names of those jobs, each as often as those job rows carry it |
| Pushes.PushesNamesJobs | pushes.py:194-205 | The listed pushes give one name per job row, and exactly the names of the jobs of one of them, each as often as those job rows carry it |
| Pushes.DayNamesJobs | pushes.py:185-205 | The names read for a day are one per job row of its pushes, and exactly the `job_type_name`s of the jobs of the resultsets of the last changeset of one of the day's pushes, each as often as those job rows carry it |
| Tally.JobKeys | pushes.py:204-209 | One job yields one key per matching pattern; the keys are exactly the label keys of its matches, and each key occurs as often as patterns match the job under it |
| Tally.KeyStream | pushes.py:201-209 | The keys of all jobs are as many as the (job, pattern) matches, exactly the label keys of those matches, and each key occurs as often as (job, pattern) pairs match under it |
| Tally.TallyJob | pushes.py:204-211 | One job adds one to each key once per matching pattern and changes nothing else; a job matching no pattern leaves the counts unchanged |
| Tally.TallyJobs | pushes.py:201-211 | A day's jobs add to each key its number of occurrences among the jobs' keys, and add no other keys |
| Tally.DayCounts | pushes.py:193-211 | The day's `label_counts` gives each key the number of (job, pattern) pairs that match under it, and holds exactly the keys with at least one match |
| Tally.DayCountsKeys | pushes.py:206-211 | Consolidated, the day's keys are the patterns that matched some job; otherwise they are the type names of jobs that some pattern matched |
| Tally.CountKeys | pushes.py:204-211 | A key is in the day's counts exactly when some pattern matched some job under that key |
| Tally.StreamKeys | pushes.py:206-209 | Consolidated keys are matching pattern strings; otherwise they are type names of jobs that some pattern matched |
| Tally.LabelRows | pushes.py:213-221 | One row per key, keys in strictly ascending order, each with that key's count |
| Tally.RowsOfSorted | pushes.py:213-221 | Rows listed from an ascending listing of exactly the keys cover every key in order, each with its count |
| Tally.TotalBump | pushes.py:211 | `label_counts.get(key, 0) + 1` raises the sum of all counts by exactly one |
| Tally.TotalTallyJob | pushes.py:204-211 | One job raises the sum of counts by the number of patterns it matches |
| Tally.TotalTallyJobs | pushes.py:201-211 | A day's jobs raise the sum of counts by the number of (job, pattern) matches |
| Tally.LabelRowsSum | pushes.py:213-221 | The printed counts of a day add up to the sum of its counts |
| Tally.DayTotal | pushes.py:193-221 | The counts a day prints add up to the number of (job, pattern) matches over its jobs |
| Pushes.CountRow | pushes.py:189-191 | A day with pushes and no patterns prints a single unlabelled row of that day and repository holding the push count, and raises exactly when the count raises, with the count's exception |
| Pushes.LabelDayRows | pushes.py:192-221 | A day with patterns prints exactly when its job names are read, raising their exception otherwise, and prints only labelled rows of that day and repository |
| Pushes.DayRows | pushes.py:185-221 | A day whose push listing is missing or empty prints nothing; other days print rows of that day and repository, labelled exactly when patterns are given |
| Pushes.DayPushCount | pushes.py:189-191 | Without patterns, a day with pushes prints exactly one row holding the push count, or raises exactly when the count raises |
| Pushes.DayLabelRows | pushes.py:192-221 | With patterns, a day prints exactly when all its job names are read: one row per key of its counts, in strictly ascending key order, each with the key's count of at least one |
| Pushes.CountRows | pushes.py:213-221 | The label rows of a day's counts number one per key, carry the keys in strictly ascending order, and each holds its key's count |
| Pushes.DayLabelTotal | pushes.py:193-221 | With patterns, whenever a day prints, its printed counts add up to the number of (job, pattern) matches over its jobs |
| Pushes.TalliedTotal | pushes.py:204-221 | The rows tallied from any list of job type names add up to the number of (job, pattern) matches over them |
| Pushes.DayLabelKeys | pushes.py:204-221 | With patterns, whenever a day prints, the printed labels are exactly the label keys of the day's matches |
| Pushes.LabelKeysOf | pushes.py:204-221 | The labels of the rows tallied from a list of type names are exactly the label keys of their matches |
| Pushes.PrintedLabels | pushes.py:213-221 | The labels printed from a day's counts are exactly the keys of the counts |
| Pushes.OutputCounts | pushes.py:181-223 | From `start` while the day is before `end`: nothing when `end <= start`, and rows of this repository within `[start, end)` in non-decreasing day order |
| Pushes.OutputCountsDay | pushes.py:183-223 | While every day up to `d` prints, the loop's rows dated `d` are exactly that day's rows, in order |
| Pushes.OutputCountsFault | pushes.py:183-223 | The first day that raises ends the loop with that day's exception, and nothing dated that day or later is printed |
| Pushes.OutputCountsCompletes | pushes.py:183-223 | The day loop runs to the end exactly when no day raises |
| Pushes.EmptyDaySkipped | pushes.py:185-186 | A day whose push listing is missing or empty prints nothing, and the loop goes on with the next day |
| Pushes.HeaderFields | pushes.py:174-178 | The header splits back into `date`, `repo`, then `test_label` exactly when patterns were given, and `count` last: four fields or three |
| Delimited.SplitJoin | pushes.py:216-221 | A line joined with a one-character delimiter that occurs in no field splits back into exactly those fields |
| Pushes.RowLineFields | pushes.py:216-221 | A printed row reads back as date, repository, the label when there is one, and a count field that `int()` turns back into the count |
| Pushes.ChainCompletes | pushes.py:250-251 | Repository runs one after another complete exactly when none of them raised |
| Pushes.ChainRows | pushes.py:250-251 | Every row of the chained runs is a row of one of the runs |
| Pushes.RepoRuns | pushes.py:250-251 | Every row of the report is for a requested repository and a day in `[start, end)` |
| Pushes.RepoRunsOrder | pushes.py:250-251 | The report is the first repository's whole day loop, then, unless it raised, the report of the remaining repositories |
| Pushes.RepoRunsComplete | pushes.py:250-251 | The report runs to the end exactly when no repository's day loop raises |
| Pushes.RenderFields | pushes.py:174-221 | With a one-character delimiter outside every column name and text field and not a digit or minus sign, the header splits back into the column names and every later line into its row's fields and count |
| Pushes.Report | pushes.py:249-251 | The output is the header (with `test_label` exactly when patterns are given), then for each row of the repository runs, in order, its printed line, and stops at their exception |

## Left out

- `get_remote_text` / `get_remote_json` (pushes.py:16-66): HTTP requests, local file reads and retry with random sleeps. Their results are the `Dashboard` values, which answer only `None` or a document. So a body that is not JSON is not modelled: `json.loads` (pushes.py:64) runs outside the `try` of `get_remote_text`, raises `ValueError` and ends the program.
- `Treeherder.__init__`, `get_pushes`, `get_changeset_resultset`, `get_jobs` (pushes.py:138-171): URL formatting and remote fetches. Their answers are the `Dashboard` fields.
- `list_repos` (pushes.py:150-154): prints a remotely fetched map, with no counting logic.
- `parse_args`, `main`'s argument handling and logging (pushes.py:69-116, 226-248): command-line glue. The loop over repositories (249-251) is modelled by `Pushes.Report`.
- `datestr` / `get_date_range` (pushes.py:119-134): they depend on the clock and on `strptime`/`strftime`. Days are integer day numbers and date text is the `dateText` parameter.
- Output encoding of the printed lines (pushes.py:216-221): under Python 2, printing a `unicode` line with a non-ASCII `job_type_name` to a stream that has no encoding, such as a pipe, raises `UnicodeEncodeError`. The model treats printing as total.
- The regular-expression engine (`re.compile` / `search`): a foreign library, modelled as the `matches` predicate.
- The JSON shape of the fetched documents: a push is its list of changesets, a resultset listing is its list of ids, and a job listing is its property names and rows. A missing key or a wrongly typed field of these documents is not modelled. The faults that are modelled are: a missing resultset or job listing, an empty changeset list, a missing or non-string `job_type_name`, and a push id that is not an integer.
- Decimal.ParseInt: the push ids come from `json.loads` as `unicode`, and Python's `int()` on `unicode` also accepts surrounding whitespace (Unicode whitespace included) and non-ASCII decimal digits such as `u'\u0661'`. The model accepts only an optional sign followed by ASCII digits, so such an id counts as not an integer.
- The request limits in the fetch URLs, at most 10 resultsets and 2000 jobs (pushes.py:164, 169): a listing is taken as the server returns it.
- An unknown repository name, which raises `KeyError` in `get_pushes` (pushes.py:160): the `Dashboard` answers for any name.
- Pushes.LabelDayRows: its own contract states when it prints and the row shape. The rows' labels, counts and order are stated by `Pushes.DayLabelRows`, `Pushes.CountRows`, `Pushes.DayLabelTotal` and `Pushes.DayLabelKeys`.
- Pushes.DayRows: its own contract states only the skip rule and the row shape. The exact rows are stated by `Pushes.DayPushCount` and `Pushes.DayLabelRows`.

=== FILE: basics.dfy ===
/** Small value types shared by the whole model. */
module Basics {

  /** A value that may be absent, as Python's `None`. */
  datatype Option<+T> = None | Some(value: T)

  /** Either a value or the exception that stopped the computation. */
  datatype Result<+T, +E> = Ok(value: T) | Err(error: E)

  /** The exceptions the aggregation can raise on data it does not expect.
      Each one aborts the whole run in the program. */
  datatype Fault =
    | BadPushId(id: string)            // `int()` of a push id that is not a decimal literal
    | NoChangesets(pushId: string)     // `changesets[-1]` of an empty list
    | NoResultsetListing(revision: string) // `None['results']` after a failed resultset fetch
    | NoJobListing(resultset: int)     // `None['results']` after a failed job fetch
    | NoJobTypeName                    // a job row without a `job_type_name` field
    | JobTypeNotText                   // `re.search` on a `job_type_name` that is not a string
}

=== FILE: decimal.dfy ===
/** Decimal text: Python's `int()` on a push id and `str()` on a count. */
module Decimal {
  import opened Basics
  import opened StringOrder

  predicate IsDigit(c: char) {
    '0' <= c <= '9'
  }

  predicate AllDigits(s: string) {
    forall i :: 0 <= i < |s| ==> IsDigit(s[i])
  }

  /** A non-empty run of decimal digits. */
  predicate IsDigits(s: string) {
    |s| > 0 && AllDigits(s)
  }

  function DigitValue(c: char): nat
    requires IsDigit(c)
  {
    c as int - '0' as int
  }

  function DigitChar(d: nat): char
    requires d < 10
  {
    ('0' as int + d) as char
  }

  /** The number a run of digits denotes; leading zeros are allowed. */
  function DigitsValue(s: string): nat
    requires AllDigits(s)
    decreases |s|
  {
    if |s| == 0 then 0
    else DigitsValue(s[..|s| - 1]) * 10 + DigitValue(s[|s| - 1])
  }

  /** Python's `int(s)` on a string: decimal digits with an optional sign.
      `None` stands for the `ValueError` raised on anything else. */
  function ParseInt(s: string): Option<int> {
    if IsDigits(s) then Some(DigitsValue(s))
    else if |s| > 1 && s[0] == '-' && IsDigits(s[1..]) then Some(-(DigitsValue(s[1..]) as int))
    else if |s| > 1 && s[0] == '+' && IsDigits(s[1..]) then Some(DigitsValue(s[1..]))
    else None
  }

  /** Python's `str(n)` for a non-negative integer: the digits without
      leading zeros, read back to `n`. */
  function NatToText(n: nat): (s: string)
    ensures IsDigits(s) && DigitsValue(s) == n
    ensures s[0] == '0' ==> n == 0 && s == "0"
    decreases n
  {
    if n < 10 then [DigitChar(n)]
    else
      var s := NatToText(n / 10) + [DigitChar(n % 10)];
      assert s[..|s| - 1] == NatToText(n / 10);
      s
  }

  /** Python's `str(n)` for any integer: a minus sign for a negative number,
      then the digits without leading zeros; `int()` reads it back. */
  function IntToText(n: int): (s: string)
    ensures ParseInt(s) == Some(n)
    ensures |s| > 0 && (s[0] == '-' <==> n < 0)
    ensures forall i :: 0 <= i < |s| ==> IsDigit(s[i]) || s[i] == '-'
    ensures s[0] == '0' ==> s == "0"
    ensures n < 0 ==> |s| > 1 && s[1] != '0'
  {
    if n < 0 then
      var s := "-" + NatToText(-n);
      assert s[1..] == NatToText(-n);
      s
    else NatToText(n)
  }

  function Pow10(k: nat): nat {
    if k == 0 then 1 else 10 * Pow10(k - 1)
  }

  lemma {:induction false} DigitsValueBound(s: string)
    requires AllDigits(s)
    ensures DigitsValue(s) < Pow10(|s|)
    decreases |s|
  {
    if |s| > 0 {
      DigitsValueBound(s[..|s| - 1]);
    }
  }

  /** Reading the leading digit first gives the same value. */
  lemma {:induction false} DigitsValueFront(s: string)
    requires IsDigits(s)
    ensures DigitsValue(s) == DigitValue(s[0]) * Pow10(|s| - 1) + DigitsValue(s[1..])
    decreases |s|
  {
    var n := |s|;
    if n > 1 {
      var p := s[..n - 1];
      DigitsValueFront(p);
      assert p[1..] == s[1..][..n - 2];
      assert DigitsValue(s[1..]) == DigitsValue(p[1..]) * 10 + DigitValue(s[n - 1]);
      ShiftDigit(DigitsValue(s), DigitsValue(p), DigitValue(s[0]), Pow10(n - 2), DigitsValue(p[1..]), DigitValue(s[n - 1]), DigitsValue(s[1..]));
    }
  }

  /** Appending a digit to a number whose leading digit is split off. */
  lemma {:induction false} ShiftDigit(v: int, vp: int, d0: int, p: int, x: int, dl: int, vr: int)
    requires v == vp * 10 + dl && vp == d0 * p + x && vr == x * 10 + dl
    ensures v == d0 * (10 * p) + vr
  {
  }

  /** Numbers written as a leading digit times `p` plus a rest below `p`
      compare by the leading digit first, then by the rest. */
  lemma {:induction false} LeadingDigitOrder(va: nat, vb: nat, da: nat, db: nat, ra: nat, rb: nat, p: nat)
    requires va == da * p + ra && vb == db * p + rb
    requires ra < p && rb < p
    ensures da == db ==> (va < vb <==> ra < rb)
    ensures da < db ==> va < vb
    ensures db < da ==> vb < va
  {
    if da < db {
      assert (da + 1) * p == da * p + p;
      assert (da + 1) * p <= db * p;
    } else if db < da {
      assert (db + 1) * p == db * p + p;
      assert (db + 1) * p <= da * p;
    }
  }

  /** Among digit strings of one width, string order is numeric order. */
  lemma {:induction false} EqualWidthOrder(a: string, b: string)
    requires AllDigits(a) && AllDigits(b) && |a| == |b|
    ensures Less(a, b) <==> DigitsValue(a) < DigitsValue(b)
    decreases |a|
  {
    if |a| > 0 {
      DigitsValueFront(a);
      DigitsValueFront(b);
      DigitsValueBound(a[1..]);
      DigitsValueBound(b[1..]);
      LeadingDigitOrder(DigitsValue(a), DigitsValue(b), DigitValue(a[0]), DigitValue(b[0]),
        DigitsValue(a[1..]), DigitsValue(b[1..]), Pow10(|a| - 1));
      if a[0] == b[0] {
        EqualWidthOrder(a[1..], b[1..]);
      }
    }
  }
}

=== FILE: delimited.dfy ===
/** Delimited output lines: Python's `delimiter.join(fields)` and the
    splitting a reader of the output would apply to get the fields back. */
module Delimited {

  /** `sep.join(fields)`: the fields with `sep` between neighbours. */
  function Join(sep: string, fields: seq<string>): string
    decreases |fields|
  {
    if |fields| == 0 then ""
    else if |fields| == 1 then fields[0]
    else fields[0] + sep + Join(sep, fields[1..])
  }

  /** Cut a line at every occurrence of a one-character delimiter. */
  function Split(line: string, sep: char): (r: seq<string>)
    ensures |r| > 0
    decreases |line|
  {
    if |line| == 0 then [""]
    else
      var rest := Split(line[1..], sep);
      if line[0] == sep then [""] + rest
      else [[line[0]] + rest[0]] + rest[1..]
  }

  /** Text free of the delimiter is glued onto the first piece of what follows. */
  lemma {:induction false} SplitField(f: string, t: string, sep: char)
    requires sep !in f
    ensures Split(f + t, sep) == [f + Split(t, sep)[0]] + Split(t, sep)[1..]
    decreases |f|
  {
    if |f| == 0 {
      var r := Split(t, sep);
      assert f + t == t;
      assert f + r[0] == r[0];
      assert r == [r[0]] + r[1..];
    } else {
      SplitField(f[1..], t, sep);
      assert (f + t)[1..] == f[1..] + t;
      assert [f[0]] + (f[1..] + Split(t, sep)[0]) == f + Split(t, sep)[0];
    }
  }

  /** A line joined with a one-character delimiter that occurs in no field
      splits back into exactly those fields. */
  lemma {:induction false} SplitJoin(sep: char, fields: seq<string>)
    requires |fields| > 0
    requires forall i :: 0 <= i < |fields| ==> sep !in fields[i]
    ensures Split(Join([sep], fields), sep) == fields
    decreases |fields|
  {
    if |fields| == 1 {
      SplitField(fields[0], "", sep);
      assert fields[0] + "" == fields[0];
    } else {
      var rest := Join([sep], fields[1..]);
      SplitJoin(sep, fields[1..]);
      assert fields[0] + [sep] + rest == fields[0] + ([sep] + rest);
      SplitField(fields[0], [sep] + rest, sep);
      assert ([sep] + rest)[1..] == rest;
      assert Split([sep] + rest, sep) == [""] + Split(rest, sep);
      assert fields[0] + "" == fields[0];
      assert fields == [fields[0]] + fields[1..];
    }
  }
}

=== FILE: jobs.dfy ===
/** Jobs as the job listing delivers them: a list of property names and
    rows of values in the same positions, turned back into records. */
module Jobs {
  import opened Basics

  /** One cell of a job row, as the JSON decoder delivers it. */
  datatype Value = Text(s: string) | Number(n: int) | Flag(b: bool) | Null

  /** Python's `zip(a, b)`: pairs by position, as many as the shorter list. */
  function Zip<A, B>(a: seq<A>, b: seq<B>): (r: seq<(A, B)>)
    ensures |r| == if |a| < |b| then |a| else |b|
    ensures forall i :: 0 <= i < |r| ==> r[i] == (a[i], b[i])
    decreases |a|
  {
    if |a| == 0 || |b| == 0 then []
    else [(a[0], b[0])] + Zip(a[1..], b[1..])
  }

  /** The keys of `d` are exactly the keys of the pairs. */
  ghost predicate KeysFrom<V>(d: map<string, V>, pairs: seq<(string, V)>) {
    forall k :: k in d <==> exists i :: 0 <= i < |pairs| && pairs[i].0 == k
  }

  /** No later pair has the key of the pair at `i`. */
  predicate LastWithKey<V>(pairs: seq<(string, V)>, i: int)
    requires 0 <= i < |pairs|
  {
    forall j :: i < j < |pairs| ==> pairs[j].0 != pairs[i].0
  }

  /** Each key of `d` holds the value of the last pair with that key. */
  ghost predicate LastValues<V>(d: map<string, V>, pairs: seq<(string, V)>) {
    forall i :: 0 <= i < |pairs| && LastWithKey(pairs, i) ==> pairs[i].0 in d && d[pairs[i].0] == pairs[i].1
  }

  /** Python's `dict(pairs)`: entries go in left to right, so a repeated key
      keeps the value of its last pair. */
  function ToDict<V>(pairs: seq<(string, V)>): (d: map<string, V>)
    ensures KeysFrom(d, pairs)
    ensures LastValues(d, pairs)
    decreases |pairs|
  {
    if |pairs| == 0 then map[]
    else
      var n := |pairs|;
      var prev := ToDict(pairs[..n - 1]);
      DictKeysStep(pairs, prev);
      DictValuesStep(pairs, prev);
      prev[pairs[n - 1].0 := pairs[n - 1].1]
  }

  /** Entering the last pair adds its key to the keys of the others. */
  lemma {:induction false} DictKeysStep<V>(pairs: seq<(string, V)>, prev: map<string, V>)
    requires |pairs| > 0 && KeysFrom(prev, pairs[..|pairs| - 1])
    ensures KeysFrom(prev[pairs[|pairs| - 1].0 := pairs[|pairs| - 1].1], pairs)
  {
    var n := |pairs|;
    var d := prev[pairs[n - 1].0 := pairs[n - 1].1];
    forall k | k in prev
      ensures exists i :: 0 <= i < n && pairs[i].0 == k
    {
      var i :| 0 <= i < n - 1 && pairs[..n - 1][i].0 == k;
      assert pairs[i].0 == k;
    }
    forall k
      ensures k in d <==> exists i :: 0 <= i < n && pairs[i].0 == k
    {
      if exists i :: 0 <= i < n && pairs[i].0 == k {
        var i :| 0 <= i < n && pairs[i].0 == k;
        if i < n - 1 {
          assert pairs[..n - 1][i] == pairs[i];
        }
      }
    }
  }

  /** Entering the last pair overrides its key and leaves the value of every
      key that does not occur again alone. */
  lemma {:induction false} DictValuesStep<V>(pairs: seq<(string, V)>, prev: map<string, V>)
    requires |pairs| > 0 && LastValues(prev, pairs[..|pairs| - 1])
    ensures LastValues(prev[pairs[|pairs| - 1].0 := pairs[|pairs| - 1].1], pairs)
  {
    var n := |pairs|;
    var prefix := pairs[..n - 1];
    var d := prev[pairs[n - 1].0 := pairs[n - 1].1];
    forall i | 0 <= i < n && LastWithKey(pairs, i)
      ensures pairs[i].0 in d && d[pairs[i].0] == pairs[i].1
    {
      if i < n - 1 {
        assert pairs[n - 1].0 != pairs[i].0;
        assert prefix[i] == pairs[i];
        assert LastWithKey(prefix, i) by {
          forall j | i < j < |prefix|
            ensures prefix[j].0 != prefix[i].0
          {
            assert prefix[j] == pairs[j];
          }
        }
      }
    }
  }

  /** A job record, `dict(zip(job_property_names, row))`: a field exists for
      every name that has a value in its position, names or values past the
      shorter list are dropped, and a repeated name keeps its last value. */
  function BuildJob(names: seq<string>, row: seq<Value>): (job: map<string, Value>)
    ensures forall k :: k in job <==> exists i :: 0 <= i < |names| && i < |row| && names[i] == k
    ensures forall i ::
      0 <= i < |names| && i < |row| && (forall j :: i < j < |names| && j < |row| ==> names[j] != names[i])
      ==> names[i] in job && job[names[i]] == row[i]
  {
    ZipKeys(names, row);
    ZipValues(names, row);
    ToDict(Zip(names, row))
  }

  lemma {:induction false} ZipKeys(names: seq<string>, row: seq<Value>)
    ensures var job := ToDict(Zip(names, row));
      forall k :: k in job <==> exists i :: 0 <= i < |names| && i < |row| && names[i] == k
  {
    var pairs := Zip(names, row);
    var job := ToDict(pairs);
    forall k
      ensures k in job <==> exists i :: 0 <= i < |names| && i < |row| && names[i] == k
    {
      if k in job {
        var i :| 0 <= i < |pairs| && pairs[i].0 == k;
        assert names[i] == k;
      }
      if exists i :: 0 <= i < |names| && i < |row| && names[i] == k {
        var i :| 0 <= i < |names| && i < |row| && names[i] == k;
        assert pairs[i].0 == k;
      }
    }
  }

  lemma {:induction false} ZipValues(names: seq<string>, row: seq<Value>)
    ensures var job := ToDict(Zip(names, row));
      forall i ::
      0 <= i < |names| && i < |row| && (forall j :: i < j < |names| && j < |row| ==> names[j] != names[i])
      ==> names[i] in job && job[names[i]] == row[i]
  {
    var pairs := Zip(names, row);
    var job := ToDict(pairs);
    forall i | 0 <= i < |names| && i < |row| && (forall j :: i < j < |names| && j < |row| ==> names[j] != names[i])
      ensures names[i] in job && job[names[i]] == row[i]
    {
      assert pairs[i] == (names[i], row[i]);
      assert LastWithKey(pairs, i) by {
        forall j | i < j < |pairs|
          ensures pairs[j].0 != pairs[i].0
        {
          assert pairs[j] == (names[j], row[j]);
        }
      }
    }
  }

  /** `job['job_type_name']` as `re.search` receives it: a missing field is a
      `KeyError`, a value that is not a string a `TypeError`. */
  function JobTypeName(job: map<string, Value>): Result<string, Fault> {
    if "job_type_name" !in job then Err(NoJobTypeName)
    else match job["job_type_name"]
      case Text(s) => Ok(s)
      case _ => Err(JobTypeNotText)
  }

  /** The same name twice keeps the later value; the unpaired trailing value
      is dropped. */
  lemma BuildJobExample()
    ensures BuildJob(["job_type_name", "id", "job_type_name"], [Text("a"), Number(7), Text("b"), Null])
         == map["job_type_name" := Text("b"), "id" := Number(7)]
  {
    ExamplePairs();
    ExampleDict();
  }

  lemma ExamplePairs()
    ensures Zip(["job_type_name", "id", "job_type_name"], [Text("a"), Number(7), Text("b"), Null])
         == [("job_type_name", Text("a")), ("id", Number(7)), ("job_type_name", Text("b"))]
  {
  }

  lemma ExampleDict()
    ensures ToDict([("job_type_name", Text("a")), ("id", Number(7)), ("job_type_name", Text("b"))])
         == map["job_type_name" := Text("b"), "id" := Number(7)]
  {
    var pairs := [("job_type_name", Text("a")), ("id", Number(7)), ("job_type_name", Text("b"))];
    assert pairs[..2][..1] == pairs[..1];
    assert ToDict(pairs[..0]) == map[];
    assert ToDict(pairs[..1]) == map["job_type_name" := Text("a")];
    assert ToDict(pairs[..2]) == map["job_type_name" := Text("a"), "id" := Number(7)];
    assert |"id"| != |"job_type_name"|;
  }
}

=== FILE: pushes.dfy ===
/** `Treeherder.output_counts` and `output_headers`: for one repository and
    each day of a date range, either the number of pushes (the span of the
    push ids) or, when test-label patterns are given, the number of matching
    test jobs per label key. Everything the program fetches is given as a
    `Dashboard`; days are integer day numbers. */
module Pushes {
  import opened Basics
  import opened StringOrder
  import opened Decimal
  import opened Delimited
  import opened Jobs
  import opened Tally

  /** A push as the push listing describes it: its changesets in order. */
  datatype Push = Push(changesets: seq<string>)

  /** A job listing: property names, and rows of values in those positions. */
  datatype JobListing = JobListing(propertyNames: seq<string>, results: seq<seq<Value>>)

  /** The dashboard's answers; `None` where a fetch produced nothing.
      - `pushesOn(repo, day)`: the push listing of `[day, day + 1)`, keyed by push id;
      - `resultsetsOf(repo, revision)`: the ids of the resultsets of a changeset;
      - `jobsOf(repo, resultset)`: the job listing of a resultset. */
  datatype Dashboard = Dashboard(
    pushesOn: (string, int) -> Option<map<string, Push>>,
    resultsetsOf: (string, string) -> Option<seq<int>>,
    jobsOf: (string, int) -> Option<JobListing>)

  /** What to count: the test-label patterns, the matcher standing in for
      `re.compile(pattern).search(name)`, and whether to consolidate. */
  datatype Query = Query(patterns: seq<string>, matches: (string, string) -> bool, consolidate: bool)

  /** One output row: `date, repo, count` or `date, repo, test_label, count`. */
  datatype Row = Row(day: int, repo: string, testLabel: Option<string>, count: int)

  /** The rows printed, and the exception that ended the run early, if any. */
  datatype Run = Run(rows: seq<Row>, fault: Option<Fault>)

  // ---------------------------------------------------------------------
  // Counting pushes

  /** `int(last) - int(first) + 1`, the last id converted first. */
  function Span(first: string, last: string): Result<int, Fault> {
    match ParseInt(last)
    case None => Err(BadPushId(last))
    case Some(hi) =>
      match ParseInt(first)
      case None => Err(BadPushId(first))
      case Some(lo) => Ok(hi - lo + 1)
  }

  /** The push count of a day without test labels: the span from the first
      to the last of the sorted push ids. The ids are sorted as strings
      before they are converted, so first and last are the least and the
      greatest id in string order (`PushCountSorted`). */
  function PushCount(ids: set<string>): Result<int, Fault>
    requires ids != {}
  {
    Span(Least(ids), Greatest(ids))
  }

  /** The count converts exactly the first and the last of the sorted ids. */
  lemma PushCountSorted(ids: set<string>)
    requires ids != {}
    ensures var sorted := SortedKeys(ids);
      PushCount(ids) == Span(sorted[0], sorted[|sorted| - 1])
  {
    SortedKeysFirst(ids);
    SortedKeysLast(ids);
    LeastUnique(ids);
    GreatestUnique(ids);
  }

  /** The count is the span from the least to the greatest id. */
  lemma PushCountSpan(ids: set<string>, lo: string, hi: string)
    requires IsLeast(lo, ids) && IsGreatest(hi, ids)
    ensures PushCount(ids) == Span(lo, hi)
  {
    LeastUnique(ids);
    GreatestUnique(ids);
  }

  /** When all push ids are digit strings of one width, the count is the
      numeric span: the numerically largest id minus the numerically
      smallest id plus one. */
  lemma EqualWidthSpan(ids: set<string>, width: nat, lo: string, hi: string)
    requires width > 0 && forall k {:trigger k in ids} :: k in ids ==> AllDigits(k) && |k| == width
    requires lo in ids && hi in ids
    requires forall k {:trigger k in ids} :: k in ids ==> DigitsValue(lo) <= DigitsValue(k) <= DigitsValue(hi)
    ensures PushCount(ids) == Span(lo, hi)
  {
    var first, last := Least(ids), Greatest(ids);
    EndValues(ids, width, lo, hi, first, last);
    SameValueSpan(ids, first, last, lo, hi);
  }

  /** Ends of the same values give the same span. */
  lemma {:induction false} SameValueSpan(ids: set<string>, first: string, last: string, lo: string, hi: string)
    requires IsLeast(first, ids) && IsGreatest(last, ids)
    requires IsDigits(first) && IsDigits(last) && IsDigits(lo) && IsDigits(hi)
    requires DigitsValue(first) == DigitsValue(lo) && DigitsValue(last) == DigitsValue(hi)
    ensures PushCount(ids) == Span(lo, hi)
  {
    EqualValueSpan(first, last, lo, hi);
    PushCountSpan(ids, first, last);
  }

  /** Digit strings of equal values span alike. */
  lemma {:induction false} EqualValueSpan(first: string, last: string, lo: string, hi: string)
    requires IsDigits(first) && IsDigits(last) && IsDigits(lo) && IsDigits(hi)
    requires DigitsValue(first) == DigitsValue(lo) && DigitsValue(last) == DigitsValue(hi)
    ensures Span(first, last) == Span(lo, hi)
  {
    DigitSpan(first, last);
    DigitSpan(lo, hi);
  }

  /** The least and greatest ids in string order hold the least and greatest
      values. */
  lemma {:induction false} EndValues(ids: set<string>, width: nat, lo: string, hi: string, first: string, last: string)
    requires width > 0 && forall k {:trigger k in ids} :: k in ids ==> AllDigits(k) && |k| == width
    requires lo in ids && hi in ids
    requires forall k {:trigger k in ids} :: k in ids ==> DigitsValue(lo) <= DigitsValue(k) <= DigitsValue(hi)
    requires IsLeast(first, ids) && IsGreatest(last, ids)
    ensures IsDigits(first) && IsDigits(last) && IsDigits(lo) && IsDigits(hi)
    ensures DigitsValue(first) == DigitsValue(lo) && DigitsValue(last) == DigitsValue(hi)
  {
    assert LessEq(first, lo) && LessEq(hi, last);
    LowEnd(first, lo, width);
    HighEnd(last, hi, width);
  }

  /** Two digit strings span from the value of one to the value of the other. */
  lemma {:induction false} DigitSpan(first: string, last: string)
    requires IsDigits(first) && IsDigits(last)
    ensures Span(first, last) == Ok(DigitsValue(last) - DigitsValue(first) + 1)
  {
  }

  /** Of two digit strings of one width, one that sorts no later and is
      numerically no smaller has the same value. */
  lemma LowEnd(first: string, lo: string, width: nat)
    requires IsDigits(first) && IsDigits(lo) && |first| == width && |lo| == width
    requires LessEq(first, lo) && DigitsValue(lo) <= DigitsValue(first)
    ensures DigitsValue(first) == DigitsValue(lo)
  {
    EqualWidthOrder(first, lo);
  }

  /** Of two digit strings of one width, one that sorts no earlier and is
      numerically no larger has the same value. */
  lemma HighEnd(last: string, hi: string, width: nat)
    requires IsDigits(last) && IsDigits(hi) && |last| == width && |hi| == width
    requires LessEq(hi, last) && DigitsValue(last) <= DigitsValue(hi)
    ensures DigitsValue(last) == DigitsValue(hi)
  {
    EqualWidthOrder(hi, last);
  }

  /** Ids of different widths need not sort numerically: "100" sorts before
      "99", so the two pushes 99 and 100 count as zero. */
  lemma LexicographicSpan()
    ensures PushCount({"99", "100"}) == Ok(0)
  {
    var ids := {"99", "100"};
    assert Less("100", "99");
    LessAsymmetric("100", "99");
    assert IsLeast("100", ids);
    assert IsGreatest("99", ids);
    PushCountSpan(ids, "100", "99");
    DigitsExamples();
  }

  /** Ids of different widths can still sort numerically: "100" is a prefix
      of "1000" and sorts first, so pushes 100 and 1000 count as 901. */
  lemma PrefixSpan()
    ensures PushCount({"100", "1000"}) == Ok(901)
  {
    var ids := {"100", "1000"};
    assert Less("100", "1000");
    LessAsymmetric("100", "1000");
    assert IsLeast("100", ids);
    assert IsGreatest("1000", ids);
    PushCountSpan(ids, "100", "1000");
    DigitsExamples();
  }

  /** Pushes 100 and 103 with ids between them missing still count as four. */
  lemma SpanIgnoresGaps()
    ensures PushCount({"100", "103"}) == Ok(4)
  {
    var ids := {"100", "103"};
    assert Less("100", "103") by {
      assert "100"[1..] == "00" && "103"[1..] == "03";
      assert "00"[1..] == "0" && "03"[1..] == "3";
    }
    LessAsymmetric("100", "103");
    assert IsLeast("100", ids);
    assert IsGreatest("103", ids);
    PushCountSpan(ids, "100", "103");
    DigitsExamples();
  }

  lemma DigitsExamples()
    ensures ParseInt("99") == Some(99)
    ensures ParseInt("100") == Some(100)
    ensures ParseInt("103") == Some(103)
    ensures ParseInt("1000") == Some(1000)
  {
    assert IsDigits("9") && IsDigits("1");
    assert IsDigits("99") && IsDigits("10");
    assert IsDigits("100") && IsDigits("103");
    assert DigitsValue("9") == 9 && DigitsValue("1") == 1;
    assert "99"[..1] == "9" && "10"[..1] == "1";
    assert DigitsValue("99") == 99 && DigitsValue("10") == 10;
    assert "100"[..2] == "10" && "103"[..2] == "10";
    assert DigitsValue("100") == 100 && DigitsValue("103") == 103;
    assert IsDigits("1000") && "1000"[..3] == "100";
    assert DigitsValue("1000") == 1000;
  }

  // ---------------------------------------------------------------------
  // Collecting the type names of a day's jobs

  /** The jobs of a listing, each rebuilt from its row. */
  function ListingJobs(listing: JobListing): (jobs: seq<map<string, Value>>)
    ensures |jobs| == |listing.results|
  {
    seq(|listing.results|, i requires 0 <= i < |listing.results| => BuildJob(listing.propertyNames, listing.results[i]))
  }

  /** The type names of a list of jobs, in order; the first job whose
      `job_type_name` is missing or not a string raises. */
  function TypeNames(jobs: seq<map<string, Value>>): (r: Result<seq<string>, Fault>)
    ensures r.Ok? <==> forall i :: 0 <= i < |jobs| ==> JobTypeName(jobs[i]).Ok?
    ensures r.Ok? ==> |r.value| == |jobs|
    ensures r.Ok? ==> forall i :: 0 <= i < |jobs| ==> JobTypeName(jobs[i]) == Ok(r.value[i])
    decreases |jobs|
  {
    if |jobs| == 0 then Ok([])
    else
      match JobTypeName(jobs[0])
      case Err(e) => Err(e)
      case Ok(name) =>
        match TypeNames(jobs[1..])
        case Err(e) => Err(e)
        case Ok(rest) =>
          assert forall i :: 1 <= i < |jobs| ==> jobs[i] == jobs[1..][i - 1];
          Ok([name] + rest)
  }

  /** The job type names of one resultset's job listing; a listing that
      could not be fetched raises. */
  function ListingNames(db: Dashboard, repo: string, id: int): Result<seq<string>, Fault> {
    match db.jobsOf(repo, id)
    case None => Err(NoJobListing(id))
    case Some(listing) => TypeNames(ListingJobs(listing))
  }

  /** The job type names of a list of resultsets, listing after listing. */
  function ResultsetNames(db: Dashboard, repo: string, ids: seq<int>): Result<seq<string>, Fault>
    decreases |ids|
  {
    if |ids| == 0 then Ok([])
    else
      match ListingNames(db, repo, ids[0])
      case Err(e) => Err(e)
      case Ok(names) =>
        match ResultsetNames(db, repo, ids[1..])
        case Err(e) => Err(e)
        case Ok(more) => Ok(names + more)
  }

  /** The names of a push's resultsets are read exactly when every job
      listing can be fetched and names all its jobs. */
  lemma {:induction false} ResultsetNamesOk(db: Dashboard, repo: string, ids: seq<int>)
    ensures ResultsetNames(db, repo, ids).Ok? <==> forall i :: 0 <= i < |ids| ==> ListingNames(db, repo, ids[i]).Ok?
    decreases |ids|
  {
    if |ids| > 0 && ListingNames(db, repo, ids[0]).Ok? {
      ResultsetNamesOk(db, repo, ids[1..]);
      var rest := ResultsetNames(db, repo, ids[1..]);
      if rest.Ok? {
        forall i | 0 <= i < |ids|
          ensures ListingNames(db, repo, ids[i]).Ok?
        {
          if i > 0 {
            assert ids[i] == ids[1..][i - 1];
          }
        }
      } else {
        var i :| 0 <= i < |ids[1..]| && !ListingNames(db, repo, ids[1..][i]).Ok?;
        assert ids[1..][i] == ids[i + 1];
      }
    }
  }

  /** The job type names of one push: its last changeset's resultsets. */
  function PushNames(db: Dashboard, repo: string, id: string, push: Push): (r: Result<seq<string>, Fault>)
    ensures |push.changesets| == 0 ==> r == Err(NoChangesets(id))
    ensures r.Ok? <==>
      |push.changesets| > 0 &&
      var revision := push.changesets[|push.changesets| - 1];
      db.resultsetsOf(repo, revision).Some? && ResultsetNames(db, repo, db.resultsetsOf(repo, revision).value).Ok?
  {
    if |push.changesets| == 0 then Err(NoChangesets(id))
    else
      var revision := push.changesets[|push.changesets| - 1];
      match db.resultsetsOf(repo, revision)
      case None => Err(NoResultsetListing(revision))
      case Some(resultsets) => ResultsetNames(db, repo, resultsets)
  }

  /** The job type names of the listed pushes, in the order given. */
  function PushesNames(db: Dashboard, repo: string, pushes: map<string, Push>, ids: seq<string>): (r: Result<seq<string>, Fault>)
    requires forall i :: 0 <= i < |ids| ==> ids[i] in pushes
    ensures r.Ok? <==> forall i :: 0 <= i < |ids| ==> PushNames(db, repo, ids[i], pushes[ids[i]]).Ok?
    decreases |ids|
  {
    if |ids| == 0 then Ok([])
    else
      match PushNames(db, repo, ids[0], pushes[ids[0]])
      case Err(e) => Err(e)
      case Ok(names) =>
        match PushesNames(db, repo, pushes, ids[1..])
        case Err(e) => Err(e)
        case Ok(rest) =>
          assert forall i :: 1 <= i < |ids| ==> ids[i] == ids[1..][i - 1];
          Ok(names + rest)
  }

  /** True when the day's push listing is missing or empty, which Python
      treats alike in `if pushes_json:`. */
  predicate NoPushes(db: Dashboard, repo: string, day: int) {
    db.pushesOn(repo, day).None? || |db.pushesOn(repo, day).value| == 0
  }

  /** The type names of every job of a day, push by push in sorted push-id
      order; none for a day without pushes. */
  function DayNames(db: Dashboard, repo: string, day: int): (r: Result<seq<string>, Fault>)
    ensures NoPushes(db, repo, day) ==> r == Ok([])
    ensures !NoPushes(db, repo, day) ==>
      var pushes := db.pushesOn(repo, day).value;
      r.Ok? <==> forall id :: id in pushes ==> PushNames(db, repo, id, pushes[id]).Ok?
  {
    if NoPushes(db, repo, day) then Ok([])
    else
      var pushes := db.pushesOn(repo, day).value;
      var ids := SortedKeys(pushes.Keys);
      EveryPush(db, repo, pushes, ids);
      PushesNames(db, repo, pushes, ids)
  }

  /** Going through a listing of exactly the push ids reaches every push. */
  lemma {:induction false} EveryPush(db: Dashboard, repo: string, pushes: map<string, Push>, ids: seq<string>)
    requires forall k :: k in ids <==> k in pushes
    ensures forall i :: 0 <= i < |ids| ==> ids[i] in pushes
    ensures (forall i :: 0 <= i < |ids| ==> PushNames(db, repo, ids[i], pushes[ids[i]]).Ok?) <==>
      forall id :: id in pushes ==> PushNames(db, repo, id, pushes[id]).Ok?
  {
    if forall i :: 0 <= i < |ids| ==> PushNames(db, repo, ids[i], pushes[ids[i]]).Ok? {
      forall id | id in pushes
        ensures PushNames(db, repo, id, pushes[id]).Ok?
      {
        var i :| 0 <= i < |ids| && ids[i] == id;
      }
    }
  }

  // ---------------------------------------------------------------------
  // Which names a day's jobs give

  /** The number of job rows of a resultset's listing; none when it is missing. */
  function ListingJobCount(db: Dashboard, repo: string, id: int): nat {
    if db.jobsOf(repo, id).None? then 0 else |db.jobsOf(repo, id).value.results|
  }

  /** The number of job rows over a list of resultsets. */
  function ResultsetsJobCount(db: Dashboard, repo: string, ids: seq<int>): nat
    decreases |ids|
  {
    if |ids| == 0 then 0 else ListingJobCount(db, repo, ids[0]) + ResultsetsJobCount(db, repo, ids[1..])
  }

  /** The number of job rows of a push: those of its last changeset's resultsets. */
  function PushJobCount(db: Dashboard, repo: string, push: Push): nat {
    if |push.changesets| == 0 then 0
    else
      match db.resultsetsOf(repo, push.changesets[|push.changesets| - 1])
      case None => 0
      case Some(ids) => ResultsetsJobCount(db, repo, ids)
  }

  /** The number of job rows over the listed pushes. */
  function PushesJobCount(db: Dashboard, repo: string, pushes: map<string, Push>, ids: seq<string>): nat
    requires forall i :: 0 <= i < |ids| ==> ids[i] in pushes
    decreases |ids|
  {
    if |ids| == 0 then 0 else PushJobCount(db, repo, pushes[ids[0]]) + PushesJobCount(db, repo, pushes, ids[1..])
  }

  /** The number of job rows over all pushes of a day. */
  function DayJobCount(db: Dashboard, repo: string, day: int): nat {
    if NoPushes(db, repo, day) then 0
    else
      var pushes := db.pushesOn(repo, day).value;
      PushesJobCount(db, repo, pushes, SortedKeys(pushes.Keys))
  }

  /** The number of jobs whose `job_type_name` is `name`. */
  function NamedIn(jobs: seq<map<string, Value>>, name: string): nat
    decreases |jobs|
  {
    if |jobs| == 0 then 0
    else (if JobTypeName(jobs[0]) == Ok(name) then 1 else 0) + NamedIn(jobs[1..], name)
  }

  /** The number of job rows named `name` in a resultset's listing. */
  function ListingNamed(db: Dashboard, repo: string, id: int, name: string): nat {
    if db.jobsOf(repo, id).None? then 0 else NamedIn(ListingJobs(db.jobsOf(repo, id).value), name)
  }

  /** The number of job rows named `name` over a list of resultsets. */
  function ResultsetsNamed(db: Dashboard, repo: string, ids: seq<int>, name: string): nat
    decreases |ids|
  {
    if |ids| == 0 then 0 else ListingNamed(db, repo, ids[0], name) + ResultsetsNamed(db, repo, ids[1..], name)
  }

  /** The number of job rows named `name` under a push's last changeset. */
  function PushNamed(db: Dashboard, repo: string, push: Push, name: string): nat {
    if |push.changesets| == 0 then 0
    else
      match db.resultsetsOf(repo, push.changesets[|push.changesets| - 1])
      case None => 0
      case Some(ids) => ResultsetsNamed(db, repo, ids, name)
  }

  /** The number of job rows named `name` over the listed pushes. */
  function PushesNamed(db: Dashboard, repo: string, pushes: map<string, Push>, ids: seq<string>, name: string): nat
    requires forall i :: 0 <= i < |ids| ==> ids[i] in pushes
    decreases |ids|
  {
    if |ids| == 0 then 0 else PushNamed(db, repo, pushes[ids[0]], name) + PushesNamed(db, repo, pushes, ids[1..], name)
  }

  /** The number of job rows named `name` over all pushes of a day. */
  function DayNamed(db: Dashboard, repo: string, day: int, name: string): nat {
    if NoPushes(db, repo, day) then 0
    else
      var pushes := db.pushesOn(repo, day).value;
      PushesNamed(db, repo, pushes, SortedKeys(pushes.Keys), name)
  }

  /** Type names read from jobs hold each name as often as jobs carry it. */
  lemma {:induction false} TypeNamesCount(jobs: seq<map<string, Value>>)
    ensures TypeNames(jobs).Ok? ==> forall name :: multiset(TypeNames(jobs).value)[name] == NamedIn(jobs, name)
    decreases |jobs|
  {
    if TypeNames(jobs).Ok? && |jobs| > 0 {
      TypeNamesCount(jobs[1..]);
      assert TypeNames(jobs).value == [JobTypeName(jobs[0]).value] + TypeNames(jobs[1..]).value;
    }
  }

  /** Some row of the job listing of resultset `id`, rebuilt as a job, has
      the `job_type_name` `name`. */
  ghost predicate ListingHas(db: Dashboard, repo: string, id: int, name: string) {
    db.jobsOf(repo, id).Some? &&
    var jobs := ListingJobs(db.jobsOf(repo, id).value);
    exists k :: 0 <= k < |jobs| && JobTypeName(jobs[k]) == Ok(name)
  }

  /** Some resultset of the list has a job named `name`. */
  ghost predicate ResultsetsHave(db: Dashboard, repo: string, ids: seq<int>, name: string) {
    exists j :: 0 <= j < |ids| && ListingHas(db, repo, ids[j], name)
  }

  /** Some resultset of the push's last changeset lists a job named `name`. */
  ghost predicate PushHas(db: Dashboard, repo: string, push: Push, name: string) {
    |push.changesets| > 0 &&
    var revision := push.changesets[|push.changesets| - 1];
    db.resultsetsOf(repo, revision).Some? && ResultsetsHave(db, repo, db.resultsetsOf(repo, revision).value, name)
  }

  /** Some listed push has a job named `name`. */
  ghost predicate PushesHave(db: Dashboard, repo: string, pushes: map<string, Push>, ids: seq<string>, name: string)
    requires forall i :: 0 <= i < |ids| ==> ids[i] in pushes
  {
    exists i :: 0 <= i < |ids| && PushHas(db, repo, pushes[ids[i]], name)
  }

  /** Some push of the day has a job named `name`. */
  ghost predicate DayHas(db: Dashboard, repo: string, day: int, name: string) {
    !NoPushes(db, repo, day) &&
    var pushes := db.pushesOn(repo, day).value;
    exists id :: id in pushes && PushHas(db, repo, pushes[id], name)
  }

  /** A listing that reads gives one name per job row: its names are
      exactly the jobs' `job_type_name`s, each as often as jobs carry it. */
  lemma ListingNamesJobs(db: Dashboard, repo: string, id: int)
    ensures var r := ListingNames(db, repo, id);
      r.Ok? ==> |r.value| == ListingJobCount(db, repo, id) && forall name :: name in r.value <==> ListingHas(db, repo, id, name)
    ensures var r := ListingNames(db, repo, id);
      r.Ok? ==> forall name :: multiset(r.value)[name] == ListingNamed(db, repo, id, name)
  {
    var r := ListingNames(db, repo, id);
    if r.Ok? {
      var jobs := ListingJobs(db.jobsOf(repo, id).value);
      assert r == TypeNames(jobs);
      TypeNamesCount(jobs);
      forall name
        ensures name in r.value <==> ListingHas(db, repo, id, name)
      {
        if name in r.value {
          var k :| 0 <= k < |r.value| && r.value[k] == name;
          assert JobTypeName(jobs[k]) == Ok(name);
        }
      }
    }
  }

  lemma ResultsetsHaveStep(db: Dashboard, repo: string, ids: seq<int>, name: string)
    requires |ids| > 0
    ensures ResultsetsHave(db, repo, ids, name) <==> ListingHas(db, repo, ids[0], name) || ResultsetsHave(db, repo, ids[1..], name)
  {
    var tail := ids[1..];
    if ResultsetsHave(db, repo, tail, name) {
      var j :| 0 <= j < |tail| && ListingHas(db, repo, tail[j], name);
      assert tail[j] == ids[j + 1];
      assert ResultsetsHave(db, repo, ids, name);
    }
    if ResultsetsHave(db, repo, ids, name) {
      var j :| 0 <= j < |ids| && ListingHas(db, repo, ids[j], name);
      if j > 0 {
        assert tail[j - 1] == ids[j];
        assert ResultsetsHave(db, repo, tail, name);
      }
    }
  }

  /** Resultsets that read give one name per job row of their listings:
      exactly the names of the jobs listed under them, each as often as
      those jobs carry it. */
  lemma {:induction false} ResultsetNamesJobs(db: Dashboard, repo: string, ids: seq<int>)
    ensures var r := ResultsetNames(db, repo, ids);
      r.Ok? ==> (|r.value| == ResultsetsJobCount(db, repo, ids) &&
                 forall name :: name in r.value <==> ResultsetsHave(db, repo, ids, name))
    ensures var r := ResultsetNames(db, repo, ids);
      r.Ok? ==> forall name :: multiset(r.value)[name] == ResultsetsNamed(db, repo, ids, name)
    decreases |ids|
  {
    var r := ResultsetNames(db, repo, ids);
    if r.Ok? && |ids| > 0 {
      var first, rest := ListingNames(db, repo, ids[0]), ResultsetNames(db, repo, ids[1..]);
      assert first.Ok? && rest.Ok? && r.value == first.value + rest.value;
      ListingNamesJobs(db, repo, ids[0]);
      ResultsetNamesJobs(db, repo, ids[1..]);
      forall name
        ensures name in r.value <==> ResultsetsHave(db, repo, ids, name)
      {
        ResultsetsHaveStep(db, repo, ids, name);
      }
    }
  }

  /** A push that reads gives one name per job row of its last changeset's
      resultsets: exactly the names of those jobs, each as often as they
      carry it. */
  lemma PushNamesJobs(db: Dashboard, repo: string, id: string, push: Push)
    ensures var r := PushNames(db, repo, id, push);
      r.Ok? ==> |r.value| == PushJobCount(db, repo, push) && forall name :: name in r.value <==> PushHas(db, repo, push, name)
    ensures var r := PushNames(db, repo, id, push);
      r.Ok? ==> forall name :: multiset(r.value)[name] == PushNamed(db, repo, push, name)
  {
    if PushNames(db, repo, id, push).Ok? {
      ResultsetNamesJobs(db, repo, db.resultsetsOf(repo, push.changesets[|push.changesets| - 1]).value);
    }
  }

  lemma PushesHaveStep(db: Dashboard, repo: string, pushes: map<string, Push>, ids: seq<string>, name: string)
    requires |ids| > 0 && forall i :: 0 <= i < |ids| ==> ids[i] in pushes
    ensures PushesHave(db, repo, pushes, ids, name) <==>
      PushHas(db, repo, pushes[ids[0]], name) || PushesHave(db, repo, pushes, ids[1..], name)
  {
    var tail := ids[1..];
    if PushesHave(db, repo, pushes, tail, name) {
      var i :| 0 <= i < |tail| && PushHas(db, repo, pushes[tail[i]], name);
      assert tail[i] == ids[i + 1];
      assert PushesHave(db, repo, pushes, ids, name);
    }
    if PushesHave(db, repo, pushes, ids, name) {
      var i :| 0 <= i < |ids| && PushHas(db, repo, pushes[ids[i]], name);
      if i > 0 {
        assert tail[i - 1] == ids[i];
        assert PushesHave(db, repo, pushes, tail, name);
      }
    }
  }

  /** Listed pushes that read give one name per job row: exactly the names
      of their jobs, each as often as those jobs carry it. */
  lemma {:induction false} PushesNamesJobs(db: Dashboard, repo: string, pushes: map<string, Push>, ids: seq<string>)
    requires forall i :: 0 <= i < |ids| ==> ids[i] in pushes
    ensures var r := PushesNames(db, repo, pushes, ids);
      r.Ok? ==> (|r.value| == PushesJobCount(db, repo, pushes, ids) &&
                 forall name :: name in r.value <==> PushesHave(db, repo, pushes, ids, name))
    ensures var r := PushesNames(db, repo, pushes, ids);
      r.Ok? ==> forall name :: multiset(r.value)[name] == PushesNamed(db, repo, pushes, ids, name)
    decreases |ids|
  {
    var r := PushesNames(db, repo, pushes, ids);
    if r.Ok? && |ids| > 0 {
      var first, rest := PushNames(db, repo, ids[0], pushes[ids[0]]), PushesNames(db, repo, pushes, ids[1..]);
      assert first.Ok? && rest.Ok? && r.value == first.value + rest.value;
      PushNamesJobs(db, repo, ids[0], pushes[ids[0]]);
      PushesNamesJobs(db, repo, pushes, ids[1..]);
      forall name
        ensures name in r.value <==> PushesHave(db, repo, pushes, ids, name)
      {
        PushesHaveStep(db, repo, pushes, ids, name);
      }
    }
  }

  /** A day that reads gives one name per job row of its pushes: exactly
      the `job_type_name`s of the jobs of the resultsets of the last
      changeset of one of its pushes, each as often as those jobs carry it. */
  lemma DayNamesJobs(db: Dashboard, repo: string, day: int)
    ensures var r := DayNames(db, repo, day);
      r.Ok? ==> |r.value| == DayJobCount(db, repo, day) && forall name :: name in r.value <==> DayHas(db, repo, day, name)
    ensures var r := DayNames(db, repo, day);
      r.Ok? ==> forall name :: multiset(r.value)[name] == DayNamed(db, repo, day, name)
  {
    var r := DayNames(db, repo, day);
    if r.Ok? && !NoPushes(db, repo, day) {
      var pushes := db.pushesOn(repo, day).value;
      var ids := SortedKeys(pushes.Keys);
      assert r == PushesNames(db, repo, pushes, ids);
      PushesNamesJobs(db, repo, pushes, ids);
      forall name
        ensures name in r.value <==> DayHas(db, repo, day, name)
      {
        EveryPushHas(db, repo, pushes, ids, name);
      }
    }
  }

  /** Going through a listing of exactly the push ids finds the jobs of
      every push. */
  lemma EveryPushHas(db: Dashboard, repo: string, pushes: map<string, Push>, ids: seq<string>, name: string)
    requires forall k :: k in ids <==> k in pushes
    ensures forall i :: 0 <= i < |ids| ==> ids[i] in pushes
    ensures PushesHave(db, repo, pushes, ids, name) <==> exists id :: id in pushes && PushHas(db, repo, pushes[id], name)
  {
    if exists id :: id in pushes && PushHas(db, repo, pushes[id], name) {
      var id :| id in pushes && PushHas(db, repo, pushes[id], name);
      var i :| 0 <= i < |ids| && ids[i] == id;
    }
  }

  // ---------------------------------------------------------------------
  // One day

  /** The label rows of a day, from its counts in ascending key order. */
  function LabelledRows(day: int, repo: string, pairs: seq<(string, nat)>): (rows: seq<Row>)
    ensures |rows| == |pairs|
    ensures forall i :: 0 <= i < |rows| ==> rows[i] == Row(day, repo, Some(pairs[i].0), pairs[i].1)
  {
    seq(|pairs|, i requires 0 <= i < |pairs| => Row(day, repo, Some(pairs[i].0), pairs[i].1))
  }

  /** The single row of a day with pushes when no patterns are given: the
      day's push count, or the exception converting an end id raised. */
  function CountRow(db: Dashboard, repo: string, day: int): (r: Result<seq<Row>, Fault>)
    requires !NoPushes(db, repo, day)
    ensures r.Ok? <==> PushCount(db.pushesOn(repo, day).value.Keys).Ok?
    ensures r.Ok? ==> |r.value| == 1 && r.value[0].day == day && r.value[0].repo == repo && r.value[0].testLabel.None?
    ensures r.Ok? ==> r.value[0].count == PushCount(db.pushesOn(repo, day).value.Keys).value
    ensures r.Err? ==> r.error == PushCount(db.pushesOn(repo, day).value.Keys).error
  {
    match PushCount(db.pushesOn(repo, day).value.Keys)
    case Err(e) => Err(e)
    case Ok(count) => Ok([Row(day, repo, None, count)])
  }

  /** The label rows of a day with pushes when patterns are given; the
      exception reading the day's job names, if any, ends the day. */
  function LabelDayRows(db: Dashboard, repo: string, q: Query, day: int): (r: Result<seq<Row>, Fault>)
    ensures r.Ok? <==> DayNames(db, repo, day).Ok?
    ensures r.Err? ==> r.error == DayNames(db, repo, day).error
    ensures r.Ok? ==> forall i :: 0 <= i < |r.value| ==>
      r.value[i].day == day && r.value[i].repo == repo && r.value[i].testLabel.Some?
  {
    match DayNames(db, repo, day)
    case Err(e) => Err(e)
    case Ok(names) => Ok(LabelledRows(day, repo, LabelRows(DayCounts(q.patterns, q.matches, q.consolidate, names))))
  }

  /** The rows printed for one repository and day: nothing for a day whose
      push listing is missing or empty, otherwise rows of this day and
      repository that carry a label exactly when patterns are given. */
  function DayRows(db: Dashboard, repo: string, q: Query, day: int): (r: Result<seq<Row>, Fault>)
    ensures NoPushes(db, repo, day) ==> r == Ok([])
    ensures r.Ok? ==> forall i :: 0 <= i < |r.value| ==>
      r.value[i].day == day && r.value[i].repo == repo && (r.value[i].testLabel.Some? <==> |q.patterns| > 0)
  {
    if NoPushes(db, repo, day) then Ok([])
    else if |q.patterns| == 0 then CountRow(db, repo, day)
    else LabelDayRows(db, repo, q, day)
  }

  /** Without patterns, a day with pushes prints the single row of its push
      count, or raises when an end id is not a number. */
  lemma {:induction false} DayPushCount(db: Dashboard, repo: string, q: Query, day: int)
    requires |q.patterns| == 0 && !NoPushes(db, repo, day)
    ensures var r, count := DayRows(db, repo, q, day), PushCount(db.pushesOn(repo, day).value.Keys);
      (r.Ok? <==> count.Ok?) && (r.Ok? ==> r.value == [Row(day, repo, None, count.value)])
  {
    assert DayRows(db, repo, q, day) == CountRow(db, repo, day);
  }

  /** With patterns, a day prints exactly when every job of it could be
      read, one row per label key in strictly ascending key order, each
      with the key's count, which is at least one. */
  lemma {:induction false} DayLabelRows(db: Dashboard, repo: string, q: Query, day: int)
    requires |q.patterns| > 0
    ensures DayRows(db, repo, q, day).Ok? <==> DayNames(db, repo, day).Ok?
    ensures DayRows(db, repo, q, day).Ok? ==>
      var rows := DayRows(db, repo, q, day).value;
      var counts := DayCounts(q.patterns, q.matches, q.consolidate, DayNames(db, repo, day).value);
      |rows| == |counts.Keys| &&
      (forall i :: 0 <= i < |rows| ==> rows[i].testLabel.value in counts && rows[i].count == counts[rows[i].testLabel.value] >= 1) &&
      (forall i, j :: 0 <= i < j < |rows| ==> Less(rows[i].testLabel.value, rows[j].testLabel.value))
  {
    var names := DayNames(db, repo, day);
    if names.Ok? {
      var counts := DayCounts(q.patterns, q.matches, q.consolidate, names.value);
      if NoPushes(db, repo, day) {
        assert counts == map[];
      } else {
        assert DayRows(db, repo, q, day) == Ok(LabelledRows(day, repo, LabelRows(counts)));
        CountRows(day, repo, counts);
      }
    }
  }

  /** The label rows of a day's counts: one per key, in strictly ascending
      key order, each with the key's count. */
  lemma {:induction false} CountRows(day: int, repo: string, counts: Counts)
    ensures var rows := LabelledRows(day, repo, LabelRows(counts));
      |rows| == |counts.Keys| &&
      (forall i :: 0 <= i < |rows| ==> rows[i].testLabel.Some? && rows[i].testLabel.value in counts && rows[i].count == counts[rows[i].testLabel.value]) &&
      (forall i, j :: 0 <= i < j < |rows| ==> Less(rows[i].testLabel.value, rows[j].testLabel.value))
  {
    var pairs := LabelRows(counts);
    var rows := LabelledRows(day, repo, pairs);
    forall i | 0 <= i < |rows|
      ensures rows[i].testLabel.Some? && rows[i].testLabel.value in counts && rows[i].count == counts[rows[i].testLabel.value]
    {
      assert rows[i] == Row(day, repo, Some(pairs[i].0), pairs[i].1);
    }
  }

  /** Sum of the counts of a list of rows. */
  function RowsTotal(rows: seq<Row>): int
    decreases |rows|
  {
    if |rows| == 0 then 0 else rows[0].count + RowsTotal(rows[1..])
  }

  lemma {:induction false} RowsTotalLabelled(day: int, repo: string, pairs: seq<(string, nat)>)
    ensures RowsTotal(LabelledRows(day, repo, pairs)) == SumCounts(pairs)
    decreases |pairs|
  {
    if |pairs| > 0 {
      RowsTotalLabelled(day, repo, pairs[1..]);
      assert LabelledRows(day, repo, pairs)[1..] == LabelledRows(day, repo, pairs[1..]);
    }
  }

  /** With patterns, a day's counts add up to the number of (job, pattern)
      matches over its jobs: every job adds one per pattern it matches. */
  lemma {:induction false} DayLabelTotal(db: Dashboard, repo: string, q: Query, day: int)
    requires |q.patterns| > 0
    ensures DayRows(db, repo, q, day).Ok? ==>
      RowsTotal(DayRows(db, repo, q, day).value) == TotalMatches(q.patterns, q.matches, DayNames(db, repo, day).value)
  {
    if DayRows(db, repo, q, day).Ok? {
      var names := DayNames(db, repo, day).value;
      if !NoPushes(db, repo, day) {
        assert DayRows(db, repo, q, day) == LabelDayRows(db, repo, q, day);
        TalliedTotal(day, repo, q, names);
      }
    }
  }

  /** The rows tallied from a list of job type names add up to the number
      of (job, pattern) matches over them. */
  lemma {:induction false} TalliedTotal(day: int, repo: string, q: Query, names: seq<string>)
    ensures RowsTotal(LabelledRows(day, repo, LabelRows(DayCounts(q.patterns, q.matches, q.consolidate, names))))
         == TotalMatches(q.patterns, q.matches, names)
  {
    RowsTotalLabelled(day, repo, LabelRows(DayCounts(q.patterns, q.matches, q.consolidate, names)));
    DayTotal(q.patterns, q.matches, q.consolidate, names);
  }

  /** Some row carries the label `k`. */
  ghost predicate HasLabel(rows: seq<Row>, k: string) {
    exists i :: 0 <= i < |rows| && rows[i].testLabel == Some(k)
  }

  /** With patterns, the labels printed for a day are exactly: when
      consolidating, the patterns that matched some job of the day; otherwise
      the type names of the day's jobs that some pattern matched. */
  lemma {:induction false} DayLabelKeys(db: Dashboard, repo: string, q: Query, day: int)
    requires |q.patterns| > 0
    ensures DayRows(db, repo, q, day).Ok? ==>
      var rows, names := DayRows(db, repo, q, day).value, DayNames(db, repo, day).value;
      forall k :: HasLabel(rows, k) <==> Matched(q.patterns, q.matches, q.consolidate, names, k)
  {
    if DayRows(db, repo, q, day).Ok? {
      var rows, names := DayRows(db, repo, q, day).value, DayNames(db, repo, day).value;
      if NoPushes(db, repo, day) {
        assert names == [] && rows == [];
      } else {
        assert DayRows(db, repo, q, day) == LabelDayRows(db, repo, q, day);
        var counts := DayCounts(q.patterns, q.matches, q.consolidate, names);
        assert rows == LabelledRows(day, repo, LabelRows(counts));
        LabelKeysOf(day, repo, q, names);
      }
    }
  }

  /** The labels of the rows tallied from a list of job type names. */
  lemma {:induction false} LabelKeysOf(day: int, repo: string, q: Query, names: seq<string>)
    ensures var rows := LabelledRows(day, repo, LabelRows(DayCounts(q.patterns, q.matches, q.consolidate, names)));
      forall k :: HasLabel(rows, k) <==> Matched(q.patterns, q.matches, q.consolidate, names, k)
  {
    var counts := DayCounts(q.patterns, q.matches, q.consolidate, names);
    PrintedLabels(day, repo, counts);
    CountKeys(q.patterns, q.matches, q.consolidate, names);
  }

  /** The labels of the printed rows are the keys of the counts. */
  lemma {:induction false} PrintedLabels(day: int, repo: string, m: Counts)
    ensures forall k :: HasLabel(LabelledRows(day, repo, LabelRows(m)), k) <==> k in m
  {
    LabelledKeys(day, repo, LabelRows(m));
    ListedKeys(m);
  }

  /** The labels of label rows are the keys they were listed under. */
  lemma {:induction false} LabelledKeys(day: int, repo: string, pairs: seq<(string, nat)>)
    ensures forall k :: HasLabel(LabelledRows(day, repo, pairs), k) <==> Listed(pairs, k)
  {
    var rows := LabelledRows(day, repo, pairs);
    forall k | Listed(pairs, k)
      ensures HasLabel(rows, k)
    {
      var i :| 0 <= i < |pairs| && pairs[i].0 == k;
      assert rows[i].testLabel == Some(k);
    }
    forall k | HasLabel(rows, k)
      ensures Listed(pairs, k)
    {
      var i :| 0 <= i < |rows| && rows[i].testLabel == Some(k);
      assert pairs[i].0 == k;
    }
  }

  // ---------------------------------------------------------------------
  // The day loop and the header

  /** `output_counts(repo, ...)` from `day` while `day < end`: each day's
      rows in turn; an exception stops the loop and keeps what was printed. */
  function OutputCounts(db: Dashboard, repo: string, q: Query, day: int, end: int): (run: Run)
    ensures end <= day ==> run == Run([], None)
    ensures forall i :: 0 <= i < |run.rows| ==> day <= run.rows[i].day < end && run.rows[i].repo == repo
    ensures forall i, j :: 0 <= i < j < |run.rows| ==> run.rows[i].day <= run.rows[j].day
    decreases end - day
  {
    if end <= day then Run([], None)
    else
      match DayRows(db, repo, q, day)
      case Err(e) => Run([], Some(e))
      case Ok(rows) =>
        var rest := OutputCounts(db, repo, q, day + 1, end);
        AppendDay(rows, rest.rows, repo, day, end);
        Run(rows + rest.rows, rest.fault)
  }

  /** One day's rows in front of the following days' rows keep the rows in
      range and in day order. */
  lemma {:induction false} AppendDay(rows: seq<Row>, rest: seq<Row>, repo: string, day: int, end: int)
    requires forall i :: 0 <= i < |rows| ==> rows[i].day == day && rows[i].repo == repo
    requires day < end
    requires forall i :: 0 <= i < |rest| ==> day + 1 <= rest[i].day < end && rest[i].repo == repo
    requires forall i, j :: 0 <= i < j < |rest| ==> rest[i].day <= rest[j].day
    ensures forall i :: 0 <= i < |rows + rest| ==> day <= (rows + rest)[i].day < end && (rows + rest)[i].repo == repo
    ensures forall i, j :: 0 <= i < j < |rows + rest| ==> (rows + rest)[i].day <= (rows + rest)[j].day
  {
    var all := rows + rest;
    forall i | 0 <= i < |all|
      ensures day <= all[i].day < end && all[i].repo == repo
    {
      if i >= |rows| {
        assert all[i] == rest[i - |rows|];
      }
    }
    forall i, j | 0 <= i < j < |all|
      ensures all[i].day <= all[j].day
    {
      if j >= |rows| {
        assert all[j] == rest[j - |rows|];
        if i >= |rows| {
          assert all[i] == rest[i - |rows|];
        }
      }
    }
  }

  /** The loop runs to the end exactly when no day raises. */
  lemma {:induction false} OutputCountsCompletes(db: Dashboard, repo: string, q: Query, day: int, end: int)
    ensures OutputCounts(db, repo, q, day, end).fault.None? <==> forall d :: day <= d < end ==> DayRows(db, repo, q, d).Ok?
    decreases end - day
  {
    if day < end {
      OutputCountsCompletes(db, repo, q, day + 1, end);
      var run, rest := OutputCounts(db, repo, q, day, end), OutputCounts(db, repo, q, day + 1, end);
      match DayRows(db, repo, q, day)
      case Err(e) =>
        assert run.fault == Some(e);
      case Ok(rows) =>
        assert run.fault == rest.fault;
        if rest.fault.None? {
          forall d | day <= d < end
            ensures DayRows(db, repo, q, d).Ok?
          {
            if d != day {
              assert day + 1 <= d < end;
            }
          }
        }
    }
  }

  /** The rows of `rows` dated `d`, in order. */
  function OfDay(rows: seq<Row>, d: int): (r: seq<Row>)
    decreases |rows|
  {
    if |rows| == 0 then []
    else (if rows[0].day == d then [rows[0]] else []) + OfDay(rows[1..], d)
  }

  lemma {:induction false} OfDayAppend(a: seq<Row>, b: seq<Row>, d: int)
    ensures OfDay(a + b, d) == OfDay(a, d) + OfDay(b, d)
    decreases |a|
  {
    if |a| > 0 {
      assert (a + b)[1..] == a[1..] + b;
      OfDayAppend(a[1..], b, d);
    } else {
      assert a + b == b;
    }
  }

  lemma {:induction false} OfDayAll(rows: seq<Row>, d: int)
    requires forall i :: 0 <= i < |rows| ==> rows[i].day == d
    ensures OfDay(rows, d) == rows
    decreases |rows|
  {
    if |rows| > 0 {
      OfDayAll(rows[1..], d);
    }
  }

  lemma {:induction false} OfDayNone(rows: seq<Row>, d: int)
    requires forall i :: 0 <= i < |rows| ==> rows[i].day != d
    ensures OfDay(rows, d) == []
    decreases |rows|
  {
    if |rows| > 0 {
      OfDayNone(rows[1..], d);
    }
  }

  /** Every day up to `d` that prints puts its rows, and only its rows,
      into the loop's output under its date. */
  lemma {:induction false} OutputCountsDay(db: Dashboard, repo: string, q: Query, day: int, end: int, d: int)
    requires day <= d < end
    requires forall e :: day <= e <= d ==> DayRows(db, repo, q, e).Ok?
    ensures OfDay(OutputCounts(db, repo, q, day, end).rows, d) == DayRows(db, repo, q, d).value
    decreases d - day
  {
    var rows := DayRows(db, repo, q, day).value;
    var rest := OutputCounts(db, repo, q, day + 1, end);
    assert OutputCounts(db, repo, q, day, end).rows == rows + rest.rows;
    OfDayAppend(rows, rest.rows, d);
    if d == day {
      OfDayAll(rows, d);
      OfDayNone(rest.rows, d);
    } else {
      OfDayNone(rows, d);
      OutputCountsDay(db, repo, q, day + 1, end, d);
    }
  }

  /** Every row is dated before `d`. */
  predicate DatedBefore(rows: seq<Row>, d: int) {
    forall i :: 0 <= i < |rows| ==> rows[i].day < d
  }

  /** Every day from `day` up to, not including, `d` prints. */
  predicate DaysPrint(db: Dashboard, repo: string, q: Query, day: int, d: int)
    decreases d - day
  {
    day >= d || (DayRows(db, repo, q, day).Ok? && DaysPrint(db, repo, q, day + 1, d))
  }

  /** The first day that raises ends the loop with its exception: the
      output keeps the rows of the days before it and nothing later. */
  lemma OutputCountsFault(db: Dashboard, repo: string, q: Query, day: int, end: int, d: int, fault: Fault)
    requires day <= d < end
    ensures DaysPrint(db, repo, q, day, d) && DayRows(db, repo, q, d) == Err(fault) ==>
      OutputCounts(db, repo, q, day, end).fault == Some(fault) && DatedBefore(OutputCounts(db, repo, q, day, end).rows, d)
  {
    if DaysPrint(db, repo, q, day, d) && DayRows(db, repo, q, d) == Err(fault) {
      FaultEndsLoop(db, repo, q, day, end, d, fault);
    }
  }

  lemma {:induction false} FaultEndsLoop(db: Dashboard, repo: string, q: Query, day: int, end: int, d: int, fault: Fault)
    requires day <= d < end
    requires DaysPrint(db, repo, q, day, d)
    requires DayRows(db, repo, q, d) == Err(fault)
    ensures OutputCounts(db, repo, q, day, end).fault == Some(fault)
    ensures DatedBefore(OutputCounts(db, repo, q, day, end).rows, d)
    decreases d - day
  {
    if day < d {
      FaultEndsLoop(db, repo, q, day + 1, end, d, fault);
      var rows := DayRows(db, repo, q, day).value;
      var rest := OutputCounts(db, repo, q, day + 1, end);
      assert OutputCounts(db, repo, q, day, end).rows == rows + rest.rows;
      AppendBefore(rows, rest.rows, day, d);
    }
  }

  lemma AppendBefore(rows: seq<Row>, rest: seq<Row>, day: int, d: int)
    requires day < d && forall i :: 0 <= i < |rows| ==> rows[i].day == day
    requires DatedBefore(rest, d)
    ensures DatedBefore(rows + rest, d)
  {
    var all := rows + rest;
    forall i | 0 <= i < |all|
      ensures all[i].day < d
    {
      if i >= |rows| {
        assert all[i] == rest[i - |rows|];
      }
    }
  }

  /** A day without pushes prints nothing and the loop goes on with the next. */
  lemma {:induction false} EmptyDaySkipped(db: Dashboard, repo: string, q: Query, day: int, end: int)
    requires day < end && NoPushes(db, repo, day)
    ensures OutputCounts(db, repo, q, day, end) == OutputCounts(db, repo, q, day + 1, end)
  {
    var rest := OutputCounts(db, repo, q, day + 1, end);
    assert DayRows(db, repo, q, day) == Ok([]);
    assert [] + rest.rows == rest.rows;
  }

  /** The header of `output_headers`. */
  function Header(hasLabels: bool, delimiter: string): string {
    Join(delimiter, if hasLabels then ["date", "repo", "test_label", "count"] else ["date", "repo", "count"])
  }

  /** With a one-character delimiter that is not in any column name, the
      header has four fields, `test_label` third, when there are patterns,
      and three otherwise. */
  lemma HeaderFields(hasLabels: bool, sep: char)
    requires sep !in "date" && sep !in "repo" && sep !in "test_label" && sep !in "count"
    ensures var fields := Split(Header(hasLabels, [sep]), sep);
      |fields| == (if hasLabels then 4 else 3) &&
      fields[0] == "date" && fields[1] == "repo" && fields[|fields| - 1] == "count" &&
      (hasLabels <==> fields[2] == "test_label")
  {
    var names := if hasLabels then ["date", "repo", "test_label", "count"] else ["date", "repo", "count"];
    SplitJoin(sep, names);
  }

  /** The fields of a printed row: date, repository, label when there is
      one, and the count written in decimal. */
  function RowFields(row: Row, dateText: int -> string): seq<string> {
    [dateText(row.day), row.repo] + (if row.testLabel.Some? then [row.testLabel.value] else []) + [IntToText(row.count)]
  }

  /** A printed row: its fields joined by the delimiter. */
  function RowLine(row: Row, delimiter: string, dateText: int -> string): string {
    Join(delimiter, RowFields(row, dateText))
  }

  /** A row printed with a one-character delimiter that is not a digit, not
      a minus sign and not in its date, repository or testLabel reads back: the
      same fields, the testLabel third when there is one, and the count last. */
  lemma RowLineFields(row: Row, sep: char, dateText: int -> string)
    requires !IsDigit(sep) && sep != '-'
    requires sep !in dateText(row.day) && sep !in row.repo
    requires row.testLabel.Some? ==> sep !in row.testLabel.value
    ensures var fields := Split(RowLine(row, [sep], dateText), sep);
      |fields| == (if row.testLabel.Some? then 4 else 3) &&
      fields[0] == dateText(row.day) && fields[1] == row.repo &&
      (row.testLabel.Some? ==> fields[2] == row.testLabel.value) &&
      ParseInt(fields[|fields| - 1]) == Some(row.count)
  {
    var fields := RowFields(row, dateText);
    var count := IntToText(row.count);
    assert sep !in count;
    assert fields[|fields| - 1] == count;
    SplitJoin(sep, fields);
  }

  // ---------------------------------------------------------------------
  // The whole report

  /** The output of one invocation: the header, then each requested
      repository's days in turn; the first exception ends it. */
  datatype Printed = Printed(lines: seq<string>, fault: Option<Fault>)

  /** Runs one after another: the rows of each in turn, up to and including
      the first run that raised, whose exception ends the whole. */
  function Chain(runs: seq<Run>): Run
    decreases |runs|
  {
    if |runs| == 0 then Run([], None)
    else if runs[0].fault.Some? then runs[0]
    else
      var rest := Chain(runs[1..]);
      Run(runs[0].rows + rest.rows, rest.fault)
  }

  /** A chain of runs completes exactly when none of them raised. */
  lemma {:induction false} ChainCompletes(runs: seq<Run>)
    ensures Chain(runs).fault.None? <==> forall i :: 0 <= i < |runs| ==> runs[i].fault.None?
    decreases |runs|
  {
    if |runs| > 0 && runs[0].fault.None? {
      ChainCompletes(runs[1..]);
      assert forall i :: 1 <= i < |runs| ==> runs[i] == runs[1..][i - 1];
    }
  }

  /** Every row of a chain is a row of one of its runs. */
  lemma {:induction false} ChainRows(runs: seq<Run>, keep: Row -> bool)
    requires forall i, j :: 0 <= i < |runs| && 0 <= j < |runs[i].rows| ==> keep(runs[i].rows[j])
    ensures forall j :: 0 <= j < |Chain(runs).rows| ==> keep(Chain(runs).rows[j])
    decreases |runs|
  {
    if |runs| > 0 && runs[0].fault.None? {
      var rest := runs[1..];
      forall i, j | 0 <= i < |rest| && 0 <= j < |rest[i].rows|
        ensures keep(rest[i].rows[j])
      {
        assert rest[i] == runs[i + 1];
      }
      ChainRows(rest, keep);
      var all := Chain(runs).rows;
      forall j | 0 <= j < |all|
        ensures keep(all[j])
      {
        if j < |runs[0].rows| {
          assert all[j] == runs[0].rows[j];
        } else {
          assert all[j] == Chain(rest).rows[j - |runs[0].rows|];
        }
      }
    }
  }

  /** The runs of `output_counts`, one per repository in the order requested. */
  function RepoLoops(db: Dashboard, repos: seq<string>, q: Query, start: int, end: int): (runs: seq<Run>)
    ensures |runs| == |repos|
    ensures forall i :: 0 <= i < |repos| ==> runs[i] == OutputCounts(db, repos[i], q, start, end)
  {
    seq(|repos|, i requires 0 <= i < |repos| => OutputCounts(db, repos[i], q, start, end))
  }

  /** `output_counts` for each repository in the order requested; the first
      exception ends the report. */
  function RepoRuns(db: Dashboard, repos: seq<string>, q: Query, start: int, end: int): (run: Run)
    ensures forall i :: 0 <= i < |run.rows| ==> run.rows[i].repo in repos && start <= run.rows[i].day < end
  {
    var runs := RepoLoops(db, repos, q, start, end);
    ChainRows(runs, (r: Row) => r.repo in repos && start <= r.day < end);
    Chain(runs)
  }

  /** The report is the first repository's whole day loop, then, unless
      that loop raised, the report of the remaining repositories. */
  lemma {:induction false} RepoRunsOrder(db: Dashboard, repos: seq<string>, q: Query, start: int, end: int)
    requires |repos| > 0
    ensures var first, rest := OutputCounts(db, repos[0], q, start, end), RepoRuns(db, repos[1..], q, start, end);
      RepoRuns(db, repos, q, start, end) == if first.fault.Some? then first else Run(first.rows + rest.rows, rest.fault)
  {
    var runs := RepoLoops(db, repos, q, start, end);
    assert runs[1..] == RepoLoops(db, repos[1..], q, start, end);
  }

  /** The report runs to the end exactly when no repository's loop raises. */
  lemma {:induction false} RepoRunsComplete(db: Dashboard, repos: seq<string>, q: Query, start: int, end: int)
    ensures RepoRuns(db, repos, q, start, end).fault.None? <==>
      forall i :: 0 <= i < |repos| ==> OutputCounts(db, repos[i], q, start, end).fault.None?
  {
    ChainCompletes(RepoLoops(db, repos, q, start, end));
  }

  /** The header, then one line per row of `run`, in order; the exception
      that ended `run` ends the output. */
  function Render(run: Run, hasLabels: bool, delimiter: string, dateText: int -> string): (out: Printed)
    ensures |out.lines| == 1 + |run.rows| && out.lines[0] == Header(hasLabels, delimiter)
    ensures forall i :: 0 <= i < |run.rows| ==> out.lines[i + 1] == RowLine(run.rows[i], delimiter, dateText)
    ensures out.fault == run.fault
  {
    Printed([Header(hasLabels, delimiter)] + seq(|run.rows|, i requires 0 <= i < |run.rows| => RowLine(run.rows[i], delimiter, dateText)), run.fault)
  }

  /** The delimiter occurs in none of the row's text fields. */
  predicate Printable(row: Row, sep: char, dateText: int -> string) {
    sep !in dateText(row.day) && sep !in row.repo && (row.testLabel.Some? ==> sep !in row.testLabel.value)
  }

  /** The line splits back into the row's date, repository, label when
      there is one, and a count that `int()` reads as the row's count. */
  ghost predicate ReadsBack(line: string, row: Row, sep: char, dateText: int -> string) {
    var fields := Split(line, sep);
    |fields| == (if row.testLabel.Some? then 4 else 3) &&
    fields[0] == dateText(row.day) && fields[1] == row.repo &&
    (row.testLabel.Some? ==> fields[2] == row.testLabel.value) &&
    ParseInt(fields[|fields| - 1]) == Some(row.count)
  }

  /** With a one-character delimiter that is not a digit, not a minus sign
      and in no column name or text field, the rendered output reads back:
      the header gives the column names and every later line its row. */
  lemma RenderFields(run: Run, hasLabels: bool, sep: char, dateText: int -> string)
    requires !IsDigit(sep) && sep != '-'
    requires sep !in "date" && sep !in "repo" && sep !in "test_label" && sep !in "count"
    requires forall i :: 0 <= i < |run.rows| ==> Printable(run.rows[i], sep, dateText)
    ensures var out := Render(run, hasLabels, [sep], dateText);
      Split(out.lines[0], sep) == (if hasLabels then ["date", "repo", "test_label", "count"] else ["date", "repo", "count"]) &&
      forall i :: 0 <= i < |run.rows| ==> ReadsBack(out.lines[i + 1], run.rows[i], sep, dateText)
  {
    var out := Render(run, hasLabels, [sep], dateText);
    SplitJoin(sep, if hasLabels then ["date", "repo", "test_label", "count"] else ["date", "repo", "count"]);
    forall i | 0 <= i < |run.rows|
      ensures ReadsBack(out.lines[i + 1], run.rows[i], sep, dateText)
    {
      RowLineFields(run.rows[i], sep, dateText);
    }
  }

  /** The lines printed: the header (with `test_label` exactly when patterns
      were given), then one line per row of the repositories' runs. */
  function Report(db: Dashboard, repos: seq<string>, q: Query, delimiter: string, dateText: int -> string, start: int, end: int): (out: Printed)
    ensures |out.lines| >= 1 && out.lines[0] == Header(|q.patterns| > 0, delimiter)
    ensures |out.lines| == 1 + |RepoRuns(db, repos, q, start, end).rows|
    ensures out.fault == RepoRuns(db, repos, q, start, end).fault
    ensures var rows := RepoRuns(db, repos, q, start, end).rows;
      forall i :: 0 <= i < |rows| ==> out.lines[i + 1] == RowLine(rows[i], delimiter, dateText)
  {
    Render(RepoRuns(db, repos, q, start, end), |q.patterns| > 0, delimiter, dateText)
  }
}

=== FILE: string_order.dfy ===
/** The ordering Python 2 uses to sort `str` values, and the sorted list of
    a dictionary's keys (`keys = d.keys(); keys.sort()`). */
module StringOrder {

  /** `a < b` on Python 2 strings: compare code point by code point; when one
      string is a proper prefix of the other, the shorter sorts first. */
  predicate Less(a: string, b: string)
    decreases |a|
  {
    if |a| == 0 then |b| > 0
    else if |b| == 0 then false
    else if a[0] != b[0] then a[0] < b[0]
    else Less(a[1..], b[1..])
  }

  predicate LessEq(a: string, b: string) {
    a == b || Less(a, b)
  }

  lemma {:induction false} LessIrreflexive(a: string)
    ensures !Less(a, a)
    decreases |a|
  {
    if |a| > 0 {
      LessIrreflexive(a[1..]);
    }
  }

  lemma {:induction false} LessAsymmetric(a: string, b: string)
    ensures !(Less(a, b) && Less(b, a))
    decreases |a|
  {
    if |a| > 0 && |b| > 0 && a[0] == b[0] {
      LessAsymmetric(a[1..], b[1..]);
    }
  }

  lemma {:induction false} LessTransitive(a: string, b: string, c: string)
    requires Less(a, b) && Less(b, c)
    ensures Less(a, c)
    decreases |a|
  {
    if |a| > 0 && a[0] == b[0] && b[0] == c[0] {
      LessTransitive(a[1..], b[1..], c[1..]);
    }
  }

  lemma {:induction false} LessTotal(a: string, b: string)
    ensures a == b || Less(a, b) || Less(b, a)
    decreases |a|
  {
    if |a| > 0 && |b| > 0 && a[0] == b[0] {
      LessTotal(a[1..], b[1..]);
      if a[1..] == b[1..] {
        assert a == [a[0]] + a[1..] && b == [b[0]] + b[1..];
      }
    }
  }

  /** `m` is the smallest element of `ks` in string order. */
  predicate IsLeast(m: string, ks: set<string>) {
    m in ks && forall k :: k in ks ==> LessEq(m, k)
  }

  /** `m` is the largest element of `ks` in string order. */
  predicate IsGreatest(m: string, ks: set<string>) {
    m in ks && forall k :: k in ks ==> LessEq(k, m)
  }

  lemma {:induction false} LeastExists(ks: set<string>)
    requires ks != {}
    ensures exists m :: IsLeast(m, ks)
    decreases |ks|
  {
    var x :| x in ks;
    if ks == {x} {
      assert IsLeast(x, ks);
    } else {
      LeastExists(ks - {x});
      var m :| IsLeast(m, ks - {x});
      LessTotal(x, m);
      if Less(x, m) {
        forall k | k in ks
          ensures LessEq(x, k)
        {
          if k != x && k != m {
            assert k in ks - {x};
            LessTransitive(x, m, k);
          }
        }
        assert IsLeast(x, ks);
      } else {
        assert IsLeast(m, ks);
      }
    }
  }

  lemma LeastUnique(ks: set<string>)
    ensures forall m1, m2 :: IsLeast(m1, ks) && IsLeast(m2, ks) ==> m1 == m2
  {
    forall m1, m2 | IsLeast(m1, ks) && IsLeast(m2, ks)
      ensures m1 == m2
    {
      LessAsymmetric(m1, m2);
    }
  }

  /** The smallest key of a non-empty set of strings. */
  function Least(ks: set<string>): (m: string)
    requires ks != {}
    ensures IsLeast(m, ks)
  {
    LeastExists(ks);
    LeastUnique(ks);
    var m :| IsLeast(m, ks); m
  }

  /** Strictly ascending: no repeats, each string sorts before the next. */
  predicate Ascending(s: seq<string>) {
    forall i, j :: 0 <= i < j < |s| ==> Less(s[i], s[j])
  }

  /** The keys of a dictionary after `keys.sort()`: every key once, in
      ascending string order. */
  function SortedKeys(ks: set<string>): (r: seq<string>)
    ensures |r| == |ks|
    ensures forall k :: k in r <==> k in ks
    ensures Ascending(r)
    decreases |ks|
  {
    if ks == {} then []
    else
      var m := Least(ks);
      var rest := SortedKeys(ks - {m});
      assert forall j :: 0 <= j < |rest| ==> Less(m, rest[j]) by {
        forall j | 0 <= j < |rest|
          ensures Less(m, rest[j])
        {
          assert rest[j] in ks - {m};
        }
      }
      [m] + rest
  }

  /** The first sorted key is the least one. */
  lemma {:induction false} SortedKeysFirst(ks: set<string>)
    requires ks != {}
    ensures IsLeast(SortedKeys(ks)[0], ks)
  {
    assert SortedKeys(ks)[0] == Least(ks);
  }

  /** The last sorted key is the greatest one. */
  lemma {:induction false} SortedKeysLast(ks: set<string>)
    requires ks != {}
    ensures IsGreatest(SortedKeys(ks)[|ks| - 1], ks)
  {
    var s := SortedKeys(ks);
    var last := |s| - 1;
    assert s[last] in ks;
    assert forall i :: 0 <= i < |s| ==> LessEq(s[i], s[last]);
  }

  lemma GreatestUnique(ks: set<string>)
    ensures forall m1, m2 :: IsGreatest(m1, ks) && IsGreatest(m2, ks) ==> m1 == m2
  {
    forall m1, m2 | IsGreatest(m1, ks) && IsGreatest(m2, ks)
      ensures m1 == m2
    {
      LessAsymmetric(m1, m2);
    }
  }

  /** The largest key of a non-empty set of strings. */
  function Greatest(ks: set<string>): (m: string)
    requires ks != {}
    ensures IsGreatest(m, ks)
  {
    SortedKeysLast(ks);
    GreatestUnique(ks);
    var m :| IsGreatest(m, ks); m
  }

  /** Sorting is determined by the key set alone: any strictly ascending
      listing of exactly the keys is the sorted one. */
  lemma {:induction false} SortedKeysUnique(s: seq<string>, ks: set<string>)
    requires Ascending(s)
    requires forall k :: k in s <==> k in ks
    ensures s == SortedKeys(ks)
    decreases |s|
  {
    if s == [] {
      assert ks == {};
    } else {
      assert s[0] in ks;
      var m := Least(ks);
      assert IsLeast(s[0], ks) by {
        forall k | k in ks
          ensures LessEq(s[0], k)
        {
          var i :| 0 <= i < |s| && s[i] == k;
        }
      }
      LeastUnique(ks);
      assert s[0] == m;
      forall k
        ensures k in s[1..] <==> k in ks - {m}
      {
        if k in s[1..] {
          var i :| 1 <= i < |s| && s[i] == k;
          assert Less(s[0], s[i]);
          LessIrreflexive(k);
        }
        if k in ks - {m} {
          var i :| 0 <= i < |s| && s[i] == k;
        }
      }
      SortedKeysUnique(s[1..], ks - {m});
      assert s == [s[0]] + s[1..];
    }
  }
}

=== FILE: tally.dfy ===
/** The label tally of one repository and day: for every job and every
    test-label pattern that matches the job's type name, one increment of
    a count keyed by the pattern (consolidated) or by the type name. The
    regular-expression engine is the `matches` parameter: `matches(p, name)`
    is `re.compile(p).search(name)` finding a match. */
module Tally {
  import opened StringOrder

  /** `label_counts`: label key to number of increments. */
  type Counts = map<string, nat>

  /** `label_counts.get(key, 0)`. */
  function Get(m: Counts, k: string): nat {
    if k in m then m[k] else 0
  }

  /** `label_counts[key] = label_counts.get(key, 0) + 1`. */
  function Bump(m: Counts, k: string): Counts {
    m[k := Get(m, k) + 1]
  }

  /** The key a match is counted under. */
  function LabelKey(consolidate: bool, pattern: string, name: string): string {
    if consolidate then pattern else name
  }

  /** How many of the patterns match a job type name. */
  function MatchCount(patterns: seq<string>, matches: (string, string) -> bool, name: string): nat
    decreases |patterns|
  {
    if |patterns| == 0 then 0
    else (if matches(patterns[0], name) then 1 else 0) + MatchCount(patterns[1..], matches, name)
  }

  /** How many (job, pattern) pairs match over a list of job type names. */
  function TotalMatches(patterns: seq<string>, matches: (string, string) -> bool, names: seq<string>): nat
    decreases |names|
  {
    if |names| == 0 then 0
    else MatchCount(patterns, matches, names[0]) + TotalMatches(patterns, matches, names[1..])
  }

  /** How many of the patterns match a job type name under the key `k`. */
  function KeyMatches(patterns: seq<string>, matches: (string, string) -> bool, consolidate: bool, name: string, k: string): nat
    decreases |patterns|
  {
    if |patterns| == 0 then 0
    else (if matches(patterns[0], name) && LabelKey(consolidate, patterns[0], name) == k then 1 else 0)
         + KeyMatches(patterns[1..], matches, consolidate, name, k)
  }

  /** How many (job, pattern) pairs match under the key `k` over a list of
      job type names. */
  function StreamMatches(patterns: seq<string>, matches: (string, string) -> bool, consolidate: bool, names: seq<string>, k: string): nat
    decreases |names|
  {
    if |names| == 0 then 0
    else KeyMatches(patterns, matches, consolidate, names[0], k) + StreamMatches(patterns, matches, consolidate, names[1..], k)
  }

  /** The keys one job is counted under, one per matching pattern, in
      pattern order. */
  function JobKeys(patterns: seq<string>, matches: (string, string) -> bool, consolidate: bool, name: string): (ks: seq<string>)
    ensures |ks| == MatchCount(patterns, matches, name)
    ensures forall k :: k in ks <==>
      exists j :: 0 <= j < |patterns| && matches(patterns[j], name) && k == LabelKey(consolidate, patterns[j], name)
    ensures forall k :: multiset(ks)[k] == KeyMatches(patterns, matches, consolidate, name, k)
    decreases |patterns|
  {
    if |patterns| == 0 then []
    else
      var rest := JobKeys(patterns[1..], matches, consolidate, name);
      assert forall j :: 1 <= j < |patterns| ==> patterns[j] == patterns[1..][j - 1];
      if matches(patterns[0], name) then [LabelKey(consolidate, patterns[0], name)] + rest else rest
  }

  /** The keys of all jobs of a day, job after job. */
  function KeyStream(patterns: seq<string>, matches: (string, string) -> bool, consolidate: bool, names: seq<string>): (ks: seq<string>)
    ensures |ks| == TotalMatches(patterns, matches, names)
    ensures forall k :: k in ks <==>
      exists i, j :: 0 <= i < |names| && 0 <= j < |patterns| && matches(patterns[j], names[i])
                   && k == LabelKey(consolidate, patterns[j], names[i])
    ensures forall k :: multiset(ks)[k] == StreamMatches(patterns, matches, consolidate, names, k)
    decreases |names|
  {
    if |names| == 0 then []
    else
      var first := JobKeys(patterns, matches, consolidate, names[0]);
      var rest := KeyStream(patterns, matches, consolidate, names[1..]);
      assert forall i :: 1 <= i < |names| ==> names[i] == names[1..][i - 1];
      assert forall k :: k in first + rest <==> k in first || k in rest;
      first + rest
  }

  /** The loop over the patterns for one job: each matching pattern adds one
      under its key, and nothing else changes. */
  function TallyJob(m: Counts, patterns: seq<string>, matches: (string, string) -> bool, consolidate: bool, name: string): (r: Counts)
    ensures forall k :: Get(r, k) == Get(m, k) + multiset(JobKeys(patterns, matches, consolidate, name))[k]
    ensures forall k :: k in r <==> k in m || k in JobKeys(patterns, matches, consolidate, name)
    ensures MatchCount(patterns, matches, name) == 0 ==> r == m
    decreases |patterns|
  {
    if |patterns| == 0 then m
    else
      var step := if matches(patterns[0], name) then Bump(m, LabelKey(consolidate, patterns[0], name)) else m;
      TallyJob(step, patterns[1..], matches, consolidate, name)
  }

  /** The loop over a day's jobs, starting from the counts so far. */
  function TallyJobs(m: Counts, patterns: seq<string>, matches: (string, string) -> bool, consolidate: bool, names: seq<string>): (r: Counts)
    ensures forall k :: Get(r, k) == Get(m, k) + multiset(KeyStream(patterns, matches, consolidate, names))[k]
    ensures forall k :: k in r <==> k in m || k in KeyStream(patterns, matches, consolidate, names)
    decreases |names|
  {
    if |names| == 0 then m
    else TallyJobs(TallyJob(m, patterns, matches, consolidate, names[0]), patterns, matches, consolidate, names[1..])
  }

  /** `label_counts` after a whole day: exactly the keys some match produced,
      each with the number of matches under it, so never less than one. */
  function DayCounts(patterns: seq<string>, matches: (string, string) -> bool, consolidate: bool, names: seq<string>): (r: Counts)
    ensures forall k :: k in r <==> k in KeyStream(patterns, matches, consolidate, names)
    ensures forall k :: k in r ==> r[k] == multiset(KeyStream(patterns, matches, consolidate, names))[k] && r[k] >= 1
    ensures forall k :: Get(r, k) == StreamMatches(patterns, matches, consolidate, names, k)
  {
    var r := TallyJobs(map[], patterns, matches, consolidate, names);
    CountsOfStream(r, KeyStream(patterns, matches, consolidate, names));
    r
  }

  /** Consolidated, the keys of a day's counts are the patterns that matched
      some job; otherwise they are the type names of jobs that some pattern
      matched. */
  lemma {:induction false} DayCountsKeys(patterns: seq<string>, matches: (string, string) -> bool, consolidate: bool, names: seq<string>)
    ensures consolidate ==> forall k :: k in DayCounts(patterns, matches, consolidate, names) <==>
      exists i, j :: 0 <= i < |names| && 0 <= j < |patterns| && matches(patterns[j], names[i]) && k == patterns[j]
    ensures !consolidate ==> forall k :: k in DayCounts(patterns, matches, consolidate, names) <==>
      exists i, j :: 0 <= i < |names| && 0 <= j < |patterns| && matches(patterns[j], names[i]) && k == names[i]
  {
    StreamKeys(patterns, matches, consolidate, names);
  }

  /** Counts started empty hold, for each key, its number of occurrences. */
  lemma {:induction false} CountsOfStream(r: Counts, ks: seq<string>)
    requires forall k :: Get(r, k) == multiset(ks)[k]
    requires forall k :: k in r <==> k in ks
    ensures forall k :: k in r ==> r[k] == multiset(ks)[k] && r[k] >= 1
  {
    forall k | k in r
      ensures r[k] == multiset(ks)[k] && r[k] >= 1
    {
      assert Get(r, k) == r[k];
      assert k in multiset(ks);
    }
  }

  /** Some pattern matched some job under the key `k`. */
  ghost predicate Matched(patterns: seq<string>, matches: (string, string) -> bool, consolidate: bool, names: seq<string>, k: string) {
    exists i, j :: 0 <= i < |names| && 0 <= j < |patterns| && matches(patterns[j], names[i])
                 && k == LabelKey(consolidate, patterns[j], names[i])
  }

  /** The keys of a day's counts are the label keys of its matches. */
  lemma {:induction false} CountKeys(patterns: seq<string>, matches: (string, string) -> bool, consolidate: bool, names: seq<string>)
    ensures forall k :: k in DayCounts(patterns, matches, consolidate, names) <==> Matched(patterns, matches, consolidate, names, k)
  {
    var ks := KeyStream(patterns, matches, consolidate, names);
    assert forall k :: k in DayCounts(patterns, matches, consolidate, names) <==> k in ks;
  }

  /** The keys of the key stream, with the label key spelled out. */
  lemma {:induction false} StreamKeys(patterns: seq<string>, matches: (string, string) -> bool, consolidate: bool, names: seq<string>)
    ensures consolidate ==> forall k :: k in KeyStream(patterns, matches, consolidate, names) <==>
      exists i, j :: 0 <= i < |names| && 0 <= j < |patterns| && matches(patterns[j], names[i]) && k == patterns[j]
    ensures !consolidate ==> forall k :: k in KeyStream(patterns, matches, consolidate, names) <==>
      exists i, j :: 0 <= i < |names| && 0 <= j < |patterns| && matches(patterns[j], names[i]) && k == names[i]
  {
    var ks := KeyStream(patterns, matches, consolidate, names);
    forall k | k in ks
      ensures exists i, j :: 0 <= i < |names| && 0 <= j < |patterns| && matches(patterns[j], names[i]) && k == LabelKey(consolidate, patterns[j], names[i])
    {
    }
  }

  /** One printed row per listed key, with that key's count. */
  function RowsOf(ks: seq<string>, m: Counts): (rows: seq<(string, nat)>)
    requires forall i :: 0 <= i < |ks| ==> ks[i] in m
    ensures |rows| == |ks|
    ensures forall i :: 0 <= i < |rows| ==> rows[i] == (ks[i], m[ks[i]])
    decreases |ks|
  {
    if |ks| == 0 then []
    else [(ks[0], m[ks[0]])] + RowsOf(ks[1..], m)
  }

  /** Rows listed from an ascending listing of exactly the map's keys. */
  lemma RowsOfSorted(ks: seq<string>, m: Counts)
    requires Ascending(ks)
    requires forall k :: k in ks <==> k in m
    ensures forall i :: 0 <= i < |RowsOf(ks, m)| ==> RowsOf(ks, m)[i].0 in m && RowsOf(ks, m)[i].1 == m[RowsOf(ks, m)[i].0]
    ensures forall k :: k in m ==> exists i :: 0 <= i < |RowsOf(ks, m)| && RowsOf(ks, m)[i].0 == k
    ensures forall i, j :: 0 <= i < j < |RowsOf(ks, m)| ==> Less(RowsOf(ks, m)[i].0, RowsOf(ks, m)[j].0)
  {
    var rows := RowsOf(ks, m);
    forall i | 0 <= i < |rows|
      ensures rows[i].0 in m && rows[i].1 == m[rows[i].0]
    {
      assert rows[i] == (ks[i], m[ks[i]]);
    }
    forall k | k in m
      ensures exists i :: 0 <= i < |rows| && rows[i].0 == k
    {
      var i :| 0 <= i < |ks| && ks[i] == k;
      assert rows[i].0 == k;
    }
    forall i, j | 0 <= i < j < |rows|
      ensures Less(rows[i].0, rows[j].0)
    {
      assert rows[i].0 == ks[i] && rows[j].0 == ks[j];
    }
  }

  /** The rows printed for a day's counts: one per key, in ascending key
      order, each with that key's count. */
  function LabelRows(m: Counts): (rows: seq<(string, nat)>)
    ensures |rows| == |m.Keys|
    ensures forall i :: 0 <= i < |rows| ==> rows[i].0 in m && rows[i].1 == m[rows[i].0]
    ensures forall k :: k in m ==> exists i :: 0 <= i < |rows| && rows[i].0 == k
    ensures forall i, j :: 0 <= i < j < |rows| ==> Less(rows[i].0, rows[j].0)
  {
    var ks := SortedKeys(m.Keys);
    RowsOfSorted(ks, m);
    RowsOf(ks, m)
  }

  /** Some row is listed under the key `k`. */
  ghost predicate Listed(rows: seq<(string, nat)>, k: string) {
    exists i :: 0 <= i < |rows| && rows[i].0 == k
  }

  /** The keys listed by the rows of a day's counts are the keys of the counts. */
  lemma {:induction false} ListedKeys(m: Counts)
    ensures forall k :: Listed(LabelRows(m), k) <==> k in m
  {
    var rows := LabelRows(m);
    forall k | Listed(rows, k)
      ensures k in m
    {
      var i :| 0 <= i < |rows| && rows[i].0 == k;
    }
  }

  function SumCounts(rows: seq<(string, nat)>): nat
    decreases |rows|
  {
    if |rows| == 0 then 0 else rows[0].1 + SumCounts(rows[1..])
  }

  /** The sum of all counts, taken least key first. */
  function Total(m: Counts): nat
    decreases |m.Keys|
  {
    if m.Keys == {} then 0
    else
      var k := Least(m.Keys);
      assert (m - {k}).Keys == m.Keys - {k};
      m[k] + Total(m - {k})
  }

  /** Removing a key that is not listed does not change the listed rows. */
  lemma {:induction false} RowsOfRemove(ks: seq<string>, m: Counts, k: string)
    requires forall i :: 0 <= i < |ks| ==> ks[i] in m
    requires k !in ks
    ensures RowsOf(ks, m) == RowsOf(ks, m - {k})
  {
    var a, b := RowsOf(ks, m), RowsOf(ks, m - {k});
    assert forall i :: 0 <= i < |a| ==> a[i] == b[i];
  }

  /** The printed counts add up to the total. */
  lemma {:induction false} LabelRowsSum(m: Counts)
    ensures SumCounts(LabelRows(m)) == Total(m)
    decreases |m.Keys|
  {
    if m.Keys != {} {
      var k := Least(m.Keys);
      var rest := m - {k};
      assert rest.Keys == m.Keys - {k};
      var tail := SortedKeys(rest.Keys);
      assert SortedKeys(m.Keys) == [k] + tail;
      assert ([k] + tail)[1..] == tail;
      assert RowsOf([k] + tail, m) == [(k, m[k])] + RowsOf(tail, m);
      RowsOfRemove(tail, m, k);
      LabelRowsSum(rest);
    }
  }

  /** The total does not depend on which key is taken out first. */
  lemma {:induction false} TotalRemove(m: Counts, k: string)
    requires k in m
    ensures Total(m) == m[k] + Total(m - {k})
    decreases |m.Keys|
  {
    var j := Least(m.Keys);
    if j != k {
      var mj, mk := m - {j}, m - {k};
      assert mj.Keys == m.Keys - {j};
      TotalRemove(mj, k);
      assert j in mk;
      assert IsLeast(j, mk.Keys);
      LeastUnique(mk.Keys);
      assert Least(mk.Keys) == j;
      assert mj - {k} == mk - {j};
    }
  }

  /** One increment raises the total by one. */
  lemma TotalBump(m: Counts, k: string)
    ensures Total(Bump(m, k)) == Total(m) + 1
  {
    var b := Bump(m, k);
    TotalRemove(b, k);
    if k in m {
      TotalRemove(m, k);
      assert b - {k} == m - {k};
    } else {
      assert b - {k} == m;
    }
  }

  lemma {:induction false} TotalTallyJob(m: Counts, patterns: seq<string>, matches: (string, string) -> bool, consolidate: bool, name: string)
    ensures Total(TallyJob(m, patterns, matches, consolidate, name)) == Total(m) + MatchCount(patterns, matches, name)
    decreases |patterns|
  {
    if |patterns| > 0 {
      var step := if matches(patterns[0], name) then Bump(m, LabelKey(consolidate, patterns[0], name)) else m;
      if matches(patterns[0], name) {
        TotalBump(m, LabelKey(consolidate, patterns[0], name));
      }
      TotalTallyJob(step, patterns[1..], matches, consolidate, name);
    }
  }

  lemma {:induction false} TotalTallyJobs(m: Counts, patterns: seq<string>, matches: (string, string) -> bool, consolidate: bool, names: seq<string>)
    ensures Total(TallyJobs(m, patterns, matches, consolidate, names)) == Total(m) + TotalMatches(patterns, matches, names)
    decreases |names|
  {
    if |names| > 0 {
      TotalTallyJob(m, patterns, matches, consolidate, names[0]);
      TotalTallyJobs(TallyJob(m, patterns, matches, consolidate, names[0]), patterns, matches, consolidate, names[1..]);
    }
  }

  /** The counts a day prints add up to the number of (job, pattern) matches. */
  lemma {:induction false} DayTotal(patterns: seq<string>, matches: (string, string) -> bool, consolidate: bool, names: seq<string>)
    ensures SumCounts(LabelRows(DayCounts(patterns, matches, consolidate, names))) == TotalMatches(patterns, matches, names)
  {
    TotalTallyJobs(map[], patterns, matches, consolidate, names);
    LabelRowsSum(DayCounts(patterns, matches, consolidate, names));
  }
}
